=== FILE: README.md ===
# egkyron-core validation engine, in Dafny

A functional model of the validation engine of `egkyron-core.js`, the core
of the egkyron model-validation library for AngularJS, with proofs about it.

- **ResultTree** (`result_tree.dfy`): the result tree a `ValidationContext`
  accumulates. Each node is `{_thisValid, _childrenValid, _validity, _children}`.
  `_childrenValid` is three-valued: absent, `true` or `false`. Children are
  keyed by property-name string, as JavaScript stores them.
- **ValidationContext** (`context.dfy`): the context operations as pure
  functions on an immutable context. The path stack is the list of property
  names from the root to the node on top of the stack.
- **Constraints** (`constraints.dfy`): the declaration forms of a constraint.
  `normalizeConstraint` turns them into `Constraint(key, validator, params)`,
  and `inGroups` filters by group.
- **Evaluator** (`evaluator.dfy`): `evaluateConstraints` runs the
  constraints of one property in order, with conditions, the group filter,
  boolean-only recording and the eager break.
- **Traversal** (`traversal.dfy`): `validate` with its argument sniffing,
  `sanitizeProps`, and the recursive `validateProperties` walk over the
  model graph, driven by an introspection strategy.
- **Controller** (`controller.dfy`): the pure helpers of
  `ValidateController`, namely `isValid` and `skipIndex`.
- **Values** and **Wrappers**: the model graph, property keys, `Option`
  and `Result`.

Collaborators the file does not define are parameters:
- the validator registry (`getRegisteredValidator`);
- the introspection strategy (`enumerateProps`,
  `extractConstraintsFromContext`, `evaluate`, `findType`, `shouldDescend`);
- what calling a validator or condition returns (`Runner`, a tri-state verdict);
- `hasValidationErrors`, which the walk calls but which is not defined in
  `egkyron-core.js`. It is the field `Engine.hasErrors`. The eager theorems
  assume it reports whether the whole result tree is invalid
  (`Traversal.ReportsRootErrors`).

Some behaviours of the code are easy to miss. The model reproduces them:
- A failing constraint on property `name` marks the node of `name` with
  `_thisValid = false`. The root gets only `_childrenValid = false`; its
  `_thisValid` stays `true`.
- A one-element declaration `["mustFoo"]` does not throw at normalisation.
  Its validator is left `undefined`, and calling it throws a TypeError
  (`Error.NotAFunction`) when the constraint runs.
- A declared empty `groups` list stays empty, so that constraint never runs.
  `groups` is empty after normalisation only when an empty list was
  declared.
- On an eager abort from a nested walk, the enclosing callbacks return
  before `popPath`, so the path stack is left deeper than the root
  (`Traversal.ValidateProperties` states how).

- `pushPath` replaces an existing child of the same name with a fresh,
  valid node. So a failure flag of a node off the path stack can be lost;
  `ValidationContext.FlagsNeverReset` is stated for nodes on the stack only.
- An array as the second element of a declaration is `typeof "object"`, so
  `[k, [...]]` takes the same shift as `[k, {...}]` (`Constraints.Item.List`).

`enumerateProps` is an external collaborator. The model assumes what the walk
relies on: it calls back once per key in order, stops at the first callback
that returns `false`, and then itself returns `false`. Only under that
assumption does a nested abort reach the outer walks and `validate`.

Termination: the walk needs `Traversal.Acyclic`. It requires that every
object or array the strategy reads as a property of an object or array is
smaller than it. The source recurses without a bound, so on a cyclic graph it
ends with a stack-overflow `RangeError`. `Traversal.ReadingStrategyAcyclic`
shows that every strategy whose `evaluate` is the simplified read
`Values.ReadProperty` meets it; `Value` cannot express a cyclic graph.

## Model

| member | source | states |
|---|---|---|
| ResultTree.RecordFacts | egkyron-core.js:386-400 | recording a verdict stores it under the constraint name at the target node and lowers that node's `_thisValid` only on failure; every ancestor keeps its own flag, verdicts and container kind, and gets `_childrenValid = false` on failure, unchanged on success; no other node changes |
| ResultTree.AttachFacts | egkyron-core.js:425-435 | entering a child hangs a fresh node under the name, creates the container with the given kind only if there is none, turns an absent `_childrenValid` into `true` and keeps a present one; ancestors keep their flags, verdicts and kind; nothing off the new path changes |
| ValidationContext.NewContext | egkyron-core.js:352-367 | a fresh context has the stack `[root]`, a root that is valid with `_thisValid` true, no `_childrenValid` and no verdicts, and no constraint name or message |
| ValidationContext.SetCurrentConstraintName | egkyron-core.js:375-379 | the constraint name is set and message and message parameters are cleared; the tree and the stack are unchanged |
| ValidationContext.SetMessage | egkyron-core.js:407-409 | only the message changes |
| ValidationContext.SetMessageParams | egkyron-core.js:416-418 | only the message parameters change |
| ValidationContext.AddResult | egkyron-core.js:386-400 | the top node's verdict for the current name becomes `(flag, message, params)` and its other verdicts stay; its `_thisValid` becomes old-value-and-flag; every other node on the stack gets `_childrenValid = false` on failure and keeps it on success; nodes off the stack are unchanged; the root is overall valid afterwards iff it was before and the flag is true |
| ValidationContext.PushPath | egkyron-core.js:425-435 | the stack grows by exactly the new property name and its top is a fresh node; the parent keeps an existing container kind, otherwise gets an array exactly when the key is a number; the parent's `_childrenValid` is set to true only when absent, so a `false` survives; ancestors and unrelated nodes are unchanged; overall root validity is unchanged |
| ValidationContext.PopPath | egkyron-core.js:440-442 | the stack loses exactly its top; the tree is unchanged |
| ValidationContext.MessageTravelsWithVerdict | egkyron-core.js:375-400 | a message and parameters set after naming a constraint end up in the verdict recorded for that name, and the next name change clears them |
| ValidationContext.FlagsNeverReset | egkyron-core.js:375-442 | no context operation turns a `false` `_thisValid` or `_childrenValid` of a node on the stack back to true |
| ValidationContext.RootKeepsFailures | egkyron-core.js:375-442 | over any sequence of context operations, a failure flag of the root is never lost |
| Controller.IsValidMeaning | egkyron-core.js:242-244 | a node is overall valid iff `_thisValid` holds and `_childrenValid` is not `false`; `null` results count as valid, and so does a fresh node |
| Constraints.Normalize | egkyron-core.js:698-739 | normalisation fails iff the declaration names a validator (bare string, string second element, or the key after the params shift) the registry does not know, and the error names it; otherwise the key is the declared key, the validator is the registered one, the given function, or not a function, and the condition is the declared one |
| Constraints.NormalizeAll | egkyron-core.js:661-672 | all declarations normalise in order to a list of the same length, or the error is that of the first failing declaration; it fails iff some declaration fails |
| Constraints.NormalizeBareString | egkyron-core.js:705-722 | a bare string `s` gives key `s`, the validator registered as `s`, default groups and no condition, and throws if `s` is not registered |
| Constraints.NormalizeKeyAndParams | egkyron-core.js:712-715 | `[k, params]` normalises exactly like `[k, k, params]` |
| Constraints.NormalizeGroups | egkyron-core.js:728-736 | `groups` after normalisation is `["default"]` when absent, `[g]` for a single name `g`, and a given list unchanged; it is empty only when an empty list was declared |
| Constraints.NormalizeKeyAndArray | egkyron-core.js:712-715 | `[k, [...]]` normalises like the bare string `k`: an array is shifted as a parameter bag with no condition or groups |
| Constraints.ShorthandsAgree | egkyron-core.js:705-736 | `"s"`, `["s", "s"]` and `["s", "s", {groups: ["default"]}]` normalise to the same constraint |
| Constraints.NormalizeSpelled | egkyron-core.js:698-739 | normalisation is idempotent: a constraint written out in full normalises back to itself |
| Constraints.AnyIn | egkyron-core.js:750-756 | the scan answers true iff some declared group occurs in the requested list |
| Constraints.InGroups | egkyron-core.js:750-756 | `inGroups` holds iff some declared group of the constraint occurs in the requested list |
| Constraints.InGroupsIsIntersection | egkyron-core.js:750-756 | `inGroups` holds iff the declared and requested groups, as sets, intersect |
| Evaluator.RunOne | egkyron-core.js:638-647 | running one applicable constraint records its verdict exactly when the validator returns a boolean, lowers the top node's flag exactly on `false`, leaves the stack and the name reset, and keeps the root valid iff it was and the verdict is not `false` |
| Evaluator.EvalList | egkyron-core.js:630-649 | the loop keeps the stack; with `eager` it breaks iff some applicable constraint returns `false`; it throws only when an applicable constraint's validator is not a function, and never when all are functions |
| Evaluator.EvalListValidity | egkyron-core.js:630-649 | after the loop the top node's `_thisValid` is its old value and no failure; the root is overall valid iff it was and no applicable constraint returned `false` |
| Evaluator.EvalListAncestors | egkyron-core.js:630-649 | every node below the root and above the top keeps `_thisValid` and gets `_childrenValid = false` exactly when some constraint failed |
| Evaluator.EvalListElsewhere | egkyron-core.js:630-649 | nodes off the stack are untouched |
| Evaluator.EvaluateConstraints | egkyron-core.js:625-651 | absent constraints change nothing; an unregistered validator name throws before any constraint runs; otherwise the stack is kept |
| Evaluator.EvaluateConstraintsValidity | egkyron-core.js:625-651 | the top node stays valid, and the root stays overall valid, iff it was and the declared constraints pass; ancestors are lowered exactly on failure; other nodes are untouched |
| Evaluator.UnrecordedKeyUntouched | egkyron-core.js:632-643 | a constraint name under which nothing is recorded (bypassed by its condition, outside the groups, or a non-boolean result) keeps its previous verdict |
| Evaluator.LastVerdictRecorded | egkyron-core.js:639-643 | without `eager`, the entry stored under a name is the verdict of the last constraint with that name that records one, with no message, since naming the constraint cleared it |
| Evaluator.StoppedIgnoresRest | egkyron-core.js:645-647 | once the loop has thrown or broken, constraints after it make no difference |
| Evaluator.EagerEndsAtFailure | egkyron-core.js:645-647 | with `eager`, no constraint after the first failing one is evaluated |
| Traversal.NonNull | egkyron-core.js:604-607 | the kept elements are exactly the non-null ones |
| Traversal.NonNullAppend | egkyron-core.js:604-607 | the filter keeps the original order: it distributes over concatenation |
| Traversal.NonNullKeepsAll | egkyron-core.js:604-607 | a list without null elements is kept as it is |
| Traversal.SanitizeProps | egkyron-core.js:600-609 | the result is `null` iff the input is `null` or has only null elements; otherwise it is the non-null elements in order |
| Traversal.ParseArgsAsWritten | egkyron-core.js:529-545 | (as written) a leading array is the groups, with eager false; otherwise a boolean first argument is eager, a following array is the groups, and the property list starts after the groups only when eager was a boolean, so with a non-boolean eager it starts at the groups array itself; without a groups array it starts after a boolean eager |
| Traversal.ParseArgs | egkyron-core.js:529-545 | (corrected) a leading array is the groups, with eager false; otherwise a boolean first argument is eager, a following array is the groups, and everything after them is the property list |
| Traversal.ParseArgsAsWrittenMisreads | egkyron-core.js:537-545 | with a non-boolean eager argument and a groups array, the code as written takes the groups array as the first property name |
| Traversal.ParseArgsAgree | egkyron-core.js:529-545 | in every other case the code as written and the corrected reading agree |
| Traversal.ListAllowListWalksNothing | egkyron-core.js:566-569 | a property list holding only an array matches no property name or index, so the walk leaves the context as it was |
| Traversal.AsWrittenValidatesNothing | egkyron-core.js:545-569 | with `(model, null, groups)` the code as written leaves the context untouched, whatever the model |
| Traversal.CorrectedValidatesAll | egkyron-core.js:529-545 | the corrected reading of `(model, null, groups)` has no property list |
| Traversal.ValidateProperties | egkyron-core.js:564-588 | the walk keeps the context well formed; unless it returned `false` the stack is back where it started; it returns `false` only with `eager`, leaving the stack at or below where it started |
| Traversal.VisitAll | egkyron-core.js:567-587 | the same for the enumeration over a key list, which stops at the first `false` |
| Traversal.Visit | egkyron-core.js:568-586 | the same for the callback on one property |
| Traversal.Leave | egkyron-core.js:582-585 | the stack loses its top and the tree is kept; the answer is `false` exactly when `eager` and the context reports errors |
| Traversal.ValidateWith | egkyron-core.js:531-548 | once the arguments are read: a `null` model gives a fresh, untouched context; otherwise the context is well formed, and without `eager` its stack is back at the root |
| Traversal.ValidateAsWritten | egkyron-core.js:529-549 | `validate` with the argument sniffing as written: the same three guarantees |
| Traversal.Validate | egkyron-core.js:529-549 | (corrected) `validate` with the corrected argument sniffing: the same three guarantees |
| Traversal.ValidateAsWrittenIgnoresModel | egkyron-core.js:529-569 | as written, `validate(model, null, groups)` returns exactly a fresh context, whatever the model |
| Traversal.ValidateAgree | egkyron-core.js:529-549 | outside that case, `validate` as written and corrected return the same result |
| Traversal.ReadingStrategyAcyclic | egkyron-core.js:571 | a strategy whose `evaluate` reads an object's field or an array's element meets the termination assumption |
| Values.ReadPropertySmaller | egkyron-core.js:571 | a property read from an object or array is missing or strictly smaller than it |
| Traversal.Selected | egkyron-core.js:569 | the allowed keys are exactly those in the sanitised property list |
| Traversal.ExcludedKeysIgnored | egkyron-core.js:569 | keys outside the property list leave no trace: the walk equals the walk over the allowed keys only |
| Traversal.VisitAllAppend | egkyron-core.js:567-587 | the walk over two key lists in a row is the first walk followed by the second, unless the first threw or returned `false` |
| Traversal.ValidatePropertiesClean | egkyron-core.js:564-588 | without `eager`, the root ends overall valid iff it started valid and every allowed property passes its constraints, recursively into every object descended into |
| Traversal.ValidateClean | egkyron-core.js:529-588 | without `eager`, `validate` returns an overall valid tree iff the model is clean in that sense |
| Traversal.EagerStopsAtError | egkyron-core.js:574-585 | with `eager`, when `hasValidationErrors` reports an invalid tree, a walk from a valid tree returns `false` iff the tree has become invalid |
| Traversal.EagerSkipsRest | egkyron-core.js:574-585 | with `eager`, once the walk has produced an error, the properties after that point are never visited |
| Controller.IndexOfPair | egkyron-core.js:237 | `indexOf('[]')` gives the first position of `[]`, counted in code points, or -1 when there is none |
| Controller.Substring | egkyron-core.js:238 | `substring` with in-range bounds (code-point positions) is the slice between them |
| Controller.SkipIndexAsWritten | egkyron-core.js:236-240 | (as written) no type and the empty type are kept; a one-code-point type becomes `""`; a longer type that is not an array is kept; an array type loses its final `[]` only when no `[]` occurs earlier, and is kept otherwise |
| Controller.SkipIndex | egkyron-core.js:236-240 | (corrected) an array type loses exactly its final `[]`; any other type, and no type, is kept |
| Controller.SkipIndexElementType | egkyron-core.js:236-240 | the element type of `T[]` is `T` for every `T`, nested arrays included |
| Controller.SkipIndexAgree | egkyron-core.js:236-240 | the code as written and the corrected version agree except on one-letter types and types with an earlier `[]` |
| Controller.SkipIndexErasesShortName | egkyron-core.js:237-238 | as written, the type `"A"` becomes `""` |
| Controller.SkipIndexMissesNestedArray | egkyron-core.js:237 | as written, the type `"A[][]"` is left unchanged |

## Left out

- The AngularJS wiring is not modelled: module, factory and directive registration, the `validator` directive, and `ValidateController`'s `configure`, `watchValidity`, `unwatchValidity`, `validate`, `handleMessage`, `getType` and `getChildType`. These are UI binding and scope watches.
- The concrete validator registry and introspection strategy are not modelled. They are not defined in this file, so they are parameters.
- `hasValidationErrors` has no definition. It is not defined in the file, so it is a parameter of the engine.
- The `_normalized` cache on the caller's constraint array is not modelled. Normalisation is a pure function. In the source, a throw part-way through leaves a partial cache behind.
- The in-place rewriting of raw declaration arrays is not modelled.
- The `this` binding of validators and conditions (`call(ctxObject, ...)`) is not modelled.
- Traversal.Strategy: the strategy's functions do not receive the validation context. The source passes `vctx` to `findType` (egkyron-core.js:546, 576), `enumerateProps` (:567), `extractConstraintsFromContext` (:570), `evaluate` (:571) and `shouldDescend` (:575). A strategy that chooses constraints or types from the current path cannot be expressed, and `Traversal.CleanModel` relies on this.
- Evaluator.EvaluateConstraints: on a throw the model returns only the error. In the source, the caller's context keeps the verdicts recorded before the throw and, after a TypeError at :640, a non-null `constraintName`.
- Validators and conditions receive the context in the source. Here they see only the value and the parameters, so a validator that sets messages through the context is not modelled.
- The text of error messages is not modelled. Only the error kind and the offending name are kept.
- Constraints.NormalizeGroups: does not state that `groups` is always non-empty, because a declared empty list is kept as it is (egkyron-core.js:731 only replaces `null`/`undefined`).
- Traversal.EagerStopsAtError: proved only for a `hasValidationErrors` that reports whether the whole tree is invalid, because the file does not define it.
- Evaluator.LastVerdictRecorded: states the stored entry only without `eager`, and only with the message a validator cannot set in this model.
- `enumerateProps` is a list of keys visited in order. Its return value is assumed to be `false` exactly when a callback returned `false`; the file does not define it.
- Traversal.ValidateProperties: the abort propagation rests on that assumption about `enumerateProps`.
- Constraints.Item: an array in a declaration carries no `condition`, `groups` or settings, since an array's own properties are not modelled.
- Traversal.ValidateProperties: termination needs `Acyclic`. The source recurses without a bound and on a cyclic object graph ends with a stack-overflow `RangeError`, which is not modelled.
- JavaScript dynamic typing is modelled through constructors rather than reproduced:
  - `typeof null === "object"` is the `NullItem` item;
  - a `Date` is its own value constructor;
  - a non-function `condition` is recorded as absent.
- Controller.SkipIndexAsWritten: type names are Dafny strings, whose length and positions count Unicode code points, while JavaScript's `length`, `indexOf` and `substring` count UTF-16 code units. The member matches egkyron-core.js:237-238 only on text inside the Basic Multilingual Plane; a single character outside it, such as `"\u{1D538}"` (JavaScript length 2), is kept by the source but erased here.
- Controller.IndexOfPair: returns a code-point position, while JavaScript's `indexOf` returns a UTF-16 position; they agree only on text inside the Basic Multilingual Plane (`"\u{1D538}[]"` gives 2 in JavaScript and 1 here).
- Controller.Substring: its bounds are code-point positions, while JavaScript's `substring` takes UTF-16 positions; they agree only on text inside the Basic Multilingual Plane.
- Numbers as property-list entries keep their value, and a key matches only an entry of the same JavaScript type. Other `typeof` categories in the property list (objects, functions) are not modelled.

## Findings

| source | as written | input that shows it | evidently intended | confidence | as-written member | corrected member |
|---|---|---|---|---|---|---|
| egkyron-core.js:537-545 | when `eager` is not a boolean, `nparams` is decremented even if `groups` was given in the third position, so the groups array is also sliced into the property list | `validate(model, null, ["g"])` | `groups = ["g"]`, no property list, every property validated | not executed; medium | Traversal.ValidateAsWritten with Traversal.ParseArgsAsWritten (shown by Traversal.ParseArgsAsWrittenMisreads, Traversal.AsWrittenValidatesNothing and Traversal.ValidateAsWrittenIgnoresModel) | Traversal.Validate with Traversal.ParseArgs (Traversal.CorrectedValidatesAll, Traversal.ParseArgsAgree, Traversal.ValidateAgree) |
| egkyron-core.js:237-238 | a one-character type has `indexOf('[]') === -1 === length - 2`, and `substring(0, -1)` is `""` | `skipIndex()` with `childType = "A"` | `"A"` is not an array type and is kept | not executed; high | Controller.SkipIndexAsWritten (Controller.SkipIndexErasesShortName) | Controller.SkipIndex (Controller.SkipIndexAgree) |
| egkyron-core.js:237 | `indexOf` finds the first `[]`, so an array of arrays is not recognised as an array | `skipIndex()` with `childType = "A[][]"` | element type `"A[]"` | not executed; medium | Controller.SkipIndexAsWritten (Controller.SkipIndexMissesNestedArray) | Controller.SkipIndex (Controller.SkipIndexElementType) |

=== FILE: constraints.dfy ===
/**
 * Constraint descriptors, the shorthand forms they may be declared in, and
 * the normaliser turning the latter into the former (`normalizeConstraint`,
 * `normalizeConstraints`), plus the group filter `inGroups`.
 */
module Constraints {
  import opened Wrappers

  /**
   * A function value (a validator or a condition). What it returns when
   * called is supplied by the engine; here it is only a handle.
   */
  datatype FnRef = FnRef(id: nat)

  /** The normalised parameter bag: the reserved `condition` and `groups` members, and the rest. */
  datatype Params = Params(condition: Option<FnRef>, groups: seq<string>, settings: map<string, string>)

  /** The `validator` member: a function, or a value that is not one (calling it throws a TypeError). */
  datatype Slot = Callable(f: FnRef) | NotCallable

  /** `Constraint(key, validator, params)`. */
  datatype Constraint = Constraint(key: string, validator: Slot, params: Params)

  /** The `groups` member of a declared parameter bag: absent (`null`/`undefined`), one name, or a list. */
  datatype Groups = Unset | One(name: string) | Many(names: seq<string>)

  /**
   * A declared parameter bag. A `condition` that is not a function is
   * recorded as absent. An array in the third position is a bag with no
   * `condition` and no `groups`.
   */
  datatype Bag = Bag(condition: Option<FnRef>, groups: Groups, settings: map<string, string>)

  /**
   * The second element of a list-form declaration, by its JavaScript type:
   * `List` is an array, `Other` a number, boolean or missing element.
   */
  datatype Item = Missing | NullItem | StrItem(s: string) | Fn(f: FnRef) | Object(bag: Bag) | List | Other

  /**
   * A constraint as declared: a bare validator key, or a list
   * `[key, validatorOrNameOrParams?, params?]`; `third == None` is a missing,
   * `null` or `undefined` third element.
   */
  datatype RawConstraint = Shorthand(name: string) | Listed(key: string, second: Item, third: Option<Bag>)

  /** What the core throws. */
  datatype Error =
    | NoValidatorRegistered(name: string)  // `no validator registered as <name>`
    | NotAFunction(key: string)            // calling a `validator` member that is not a function

  /** `getRegisteredValidator`: a falsy answer is `None`. */
  type Registry = string -> Option<FnRef>

  /** `Validator.DEFAULT_GROUPS`. */
  const DefaultGroups: seq<string> := ["default"]

  /** `typeof x === "object"`, which JavaScript also answers yes to for `null` and arrays. */
  predicate ObjectTyped(i: Item)
  {
    i.NullItem? || i.Object? || i.List?
  }

  /**
   * The validator name a declaration asks the registry for, read off the
   * shorthand rules: a bare string names itself; `[k, "name", ...]` names
   * "name"; `[k, params]` (or `[k, null]`) names `k`; anything else names none.
   */
  function RequestedName(raw: RawConstraint): Option<string>
  {
    match raw
    case Shorthand(s) => Some(s)
    case Listed(k, StrItem(n), _) => Some(n)
    case Listed(k, second, third) => if ObjectTyped(second) && third.None? then Some(k) else None
  }

  /**
   * The parameter bag a declaration ends up with, before defaults: the
   * shifted second element or the third. A shifted array carries no
   * `condition` and no `groups`.
   */
  function DeclaredBag(raw: RawConstraint): Option<Bag>
  {
    match raw
    case Shorthand(_) => None
    case Listed(_, Object(b), None) => Some(b)
    case Listed(_, List, None) => Some(Bag(None, Unset, map[]))
    case Listed(_, _, third) => third
  }

  function KeyOf(raw: RawConstraint): string
  {
    match raw
    case Shorthand(s) => s
    case Listed(k, _, _) => k
  }

  /** Step 1 and 2 of normalisation: the string shorthand and the shift of a lone parameter bag. */
  function Expand(raw: RawConstraint): (string, Item, Option<Bag>)
  {
    match raw
    case Shorthand(s) => (s, StrItem(s), None)
    case Listed(k, second, third) =>
      if ObjectTyped(second) && third.None? then
        (k, StrItem(k), if second.Object? then Some(second.bag) else if second.List? then Some(Bag(None, Unset, map[])) else None)
      else (k, second, third)
  }

  /** Step 3: a validator given by name is looked up, and an unknown name throws. */
  function Resolve(registry: Registry, second: Item): Result<Slot, Error>
  {
    match second
    case StrItem(name) =>
      if registry(name).Some? then Ok(Callable(registry(name).value)) else Err(NoValidatorRegistered(name))
    case Fn(f) => Ok(Callable(f))
    case _ => Ok(NotCallable)
  }

  /** Step 4: the parameter bag defaults to `{}`, its groups to `["default"]`, and a single group becomes a list. */
  function Complete(bag: Option<Bag>): Params
  {
    var b := if bag.Some? then bag.value else Bag(None, Unset, map[]);
    var groups := match b.groups
      case Unset => DefaultGroups
      case One(g) => [g]
      case Many(gs) => gs;
    Params(b.condition, groups, b.settings)
  }

  /** `normalizeConstraint`. */
  function Normalize(registry: Registry, raw: RawConstraint): (r: Result<Constraint, Error>)
    ensures r.Err? <==> RequestedName(raw).Some? && registry(RequestedName(raw).value).None?
    ensures r.Err? ==> r.error == NoValidatorRegistered(RequestedName(raw).value)
    ensures r.Ok? ==> r.value.key == KeyOf(raw)
    ensures r.Ok? && RequestedName(raw).Some? ==> r.value.validator == Callable(registry(RequestedName(raw).value).value)
    ensures r.Ok? && raw.Listed? && raw.second.Fn? ==> r.value.validator == Callable(raw.second.f)
    ensures r.Ok? && RequestedName(raw).None? && !(raw.Listed? && raw.second.Fn?) ==> r.value.validator == NotCallable
    ensures r.Ok? ==> r.value.params.condition == (if DeclaredBag(raw).Some? then DeclaredBag(raw).value.condition else None)
  {
    var (key, second, third) := Expand(raw);
    var validator :- Resolve(registry, second);
    Ok(Constraint(key, validator, Complete(third)))
  }

  /** `normalizeConstraints`, without its cache: each declaration in order, the first failure aborting. */
  function NormalizeAll(registry: Registry, raws: seq<RawConstraint>): (r: Result<seq<Constraint>, Error>)
    ensures r.Ok? ==> |r.value| == |raws| && forall i | 0 <= i < |raws| :: Normalize(registry, raws[i]) == Ok(r.value[i])
    ensures r.Err? ==> exists i | 0 <= i < |raws| ::
              && Normalize(registry, raws[i]) == Err(r.error)
              && forall j | 0 <= j < i :: Normalize(registry, raws[j]).Ok?
    ensures r.Err? <==> exists i | 0 <= i < |raws| :: Normalize(registry, raws[i]).Err?
    decreases |raws|
  {
    if raws == [] then Ok([])
    else
      var c :- Normalize(registry, raws[0]);
      var cs :- NormalizeAll(registry, raws[1..]);
      assert forall i | 1 <= i < |raws| :: raws[i] == raws[1..][i - 1];
      Ok([c] + cs)
  }

  /** Whether some element of `declared` occurs in `requested`, scanning `declared` in order. */
  function AnyIn(declared: seq<string>, requested: seq<string>): (r: bool)
    ensures r <==> exists i | 0 <= i < |declared| :: declared[i] in requested
    decreases |declared|
  {
    if declared == [] then false
    else if declared[0] in requested then true
    else AnyIn(declared[1..], requested)
  }

  /** `inGroups`: the constraint belongs to at least one requested group. */
  function InGroups(c: Constraint, requested: seq<string>): (r: bool)
    ensures r <==> exists i | 0 <= i < |c.params.groups| :: c.params.groups[i] in requested
  {
    AnyIn(c.params.groups, requested)
  }

  /** The group filter is set intersection: order and repetition of either list are irrelevant. */
  lemma InGroupsIsIntersection(c: Constraint, requested: seq<string>)
    ensures InGroups(c, requested) <==> (set g | g in c.params.groups) * (set g | g in requested) != {}
  {
    var common := (set g | g in c.params.groups) * (set g | g in requested);
    if InGroups(c, requested) {
      var i :| 0 <= i < |c.params.groups| && c.params.groups[i] in requested;
      assert c.params.groups[i] in common;
    }
  }

  /** A bare string `s` names both the constraint and its validator, with the default groups. */
  lemma NormalizeBareString(registry: Registry, s: string)
    ensures registry(s).None? ==> Normalize(registry, Shorthand(s)) == Err(NoValidatorRegistered(s))
    ensures registry(s).Some? ==>
      Normalize(registry, Shorthand(s)) == Ok(Constraint(s, Callable(registry(s).value), Params(None, DefaultGroups, map[])))
  {
  }

  /** `[k, params]` means `[k, k, params]`: the key doubles as the validator name. */
  lemma NormalizeKeyAndParams(registry: Registry, k: string, b: Bag)
    ensures Normalize(registry, Listed(k, Object(b), None)) == Normalize(registry, Listed(k, StrItem(k), Some(b)))
    ensures registry(k).Some? ==>
      Normalize(registry, Listed(k, Object(b), None)) == Ok(Constraint(k, Callable(registry(k).value), Complete(Some(b))))
  {
  }

  /**
   * After normalisation `groups` is a list: the default when none was given,
   * the one-element list for a single name, and a given list unchanged
   * (so it is non-empty unless an empty list was declared).
   */
  lemma NormalizeGroups(registry: Registry, raw: RawConstraint)
    requires Normalize(registry, raw).Ok?
    ensures var groups := Normalize(registry, raw).value.params.groups;
      match DeclaredBag(raw)
      case None => groups == DefaultGroups
      case Some(b) =>
        match b.groups
        case Unset => groups == DefaultGroups
        case One(g) => groups == [g]
        case Many(gs) => groups == gs
    ensures Normalize(registry, raw).value.params.groups == [] ==> DeclaredBag(raw).Some? && DeclaredBag(raw).value.groups == Many([])
  {
  }

  /** `[k, [...]]` takes the same shift as `[k, {...}]`: the key names the validator and the defaults apply. */
  lemma NormalizeKeyAndArray(registry: Registry, k: string)
    ensures Normalize(registry, Listed(k, List, None)) == Normalize(registry, Shorthand(k))
  {
  }

  /** The three spellings of a constraint with default groups normalise to the same descriptor. */
  lemma ShorthandsAgree(registry: Registry, s: string)
    ensures Normalize(registry, Shorthand(s)) == Normalize(registry, Listed(s, StrItem(s), None))
    ensures Normalize(registry, Shorthand(s)) == Normalize(registry, Listed(s, StrItem(s), Some(Bag(None, Many(DefaultGroups), map[]))))
  {
  }

  /** The declaration that spells out a descriptor in full. */
  function Spelled(c: Constraint): RawConstraint
    requires c.validator.Callable?
  {
    Listed(c.key, Fn(c.validator.f), Some(Bag(c.params.condition, Many(c.params.groups), c.params.settings)))
  }

  /** Normalisation is idempotent: a descriptor spelled out in full normalises back to itself. */
  lemma NormalizeSpelled(registry: Registry, c: Constraint)
    requires c.validator.Callable?
    ensures Normalize(registry, Spelled(c)) == Ok(c)
  {
  }
}

=== FILE: context.dfy ===
/**
 * `ValidationContext`: the single-use accumulator of one validation run.
 * It owns the result tree, the path stack (modelled as the property names
 * leading from the root to the node on top of the stack) and the scratch
 * fields describing the constraint currently being evaluated.
 */
module ValidationContext {
  import opened Wrappers
  import opened Values
  import opened ResultTree

  datatype Context = Context(
    result: Node,
    path: seq<string>,
    constraintName: Option<string>,
    message: Option<string>,
    messageParams: Option<string>)

  /** Every entry of the path stack is a node of the tree. */
  predicate Valid(c: Context)
  {
    Resolves(c.result, c.path)
  }

  /** The node on top of the path stack, the one results are written to. */
  function Top(c: Context): Node
    requires Valid(c)
  {
    Get(c.result, c.path)
  }

  /** A fresh context: a valid root without `_childrenValid`, and the stack `[root]`. */
  function NewContext(): (c: Context)
    ensures Valid(c) && c.path == [] && Top(c) == Fresh()
    ensures IsValid(Some(c.result)) && c.result.childrenValid.None? && c.result.validity.None?
    ensures c.constraintName.None? && c.message.None? && c.messageParams.None?
  {
    Context(Fresh(), [], None, None, None)
  }

  /** Begins (or, with `None`, ends) a constraint: the scratch message and its parameters are cleared. */
  function SetCurrentConstraintName(c: Context, name: Option<string>): (c': Context)
    ensures c'.constraintName == name && c'.message.None? && c'.messageParams.None?
    ensures c'.result == c.result && c'.path == c.path
  {
    c.(constraintName := name, message := None, messageParams := None)
  }

  /** `setMessage`: the message the next recorded verdict will carry; nothing else changes. */
  function SetMessage(c: Context, msg: Option<string>): (c': Context)
    ensures c'.message == msg
    ensures c'.result == c.result && c'.path == c.path && c'.constraintName == c.constraintName && c'.messageParams == c.messageParams
  {
    c.(message := msg)
  }

  /** `setMessageParams`: the message parameters the next recorded verdict will carry; nothing else changes. */
  function SetMessageParams(c: Context, params: Option<string>): (c': Context)
    ensures c'.messageParams == params
    ensures c'.result == c.result && c'.path == c.path && c'.constraintName == c.constraintName && c'.message == c.message
  {
    c.(messageParams := params)
  }

  /** The property a constraint name becomes in `_validity`; JavaScript writes `null` as "null". */
  function ResultKey(name: Option<string>): string
  {
    if name.Some? then name.value else "null"
  }

  /**
   * Records the verdict of the current constraint at the top node; a failure
   * lowers that node's `_thisValid` and the `_childrenValid` of every other
   * node on the stack.
   */
  function AddResult(c: Context, flag: bool): (c': Context)
    requires Valid(c)
    ensures Valid(c') && c'.path == c.path
    ensures c'.constraintName == c.constraintName && c'.message == c.message && c'.messageParams == c.messageParams
    ensures Results(Top(c')) == Results(Top(c))[ResultKey(c.constraintName) := ValidationResult(flag, c.message, c.messageParams)]
    ensures Top(c').validity.Some?
    ensures Top(c').thisValid == (Top(c).thisValid && flag)
    ensures Top(c').childrenValid == Top(c).childrenValid && KindOf(Top(c')) == KindOf(Top(c))
    ensures forall q | q < c.path ::
              && Resolves(c.result, q) && Resolves(c'.result, q)
              && Get(c'.result, q).thisValid == Get(c.result, q).thisValid
              && Get(c'.result, q).validity == Get(c.result, q).validity
              && KindOf(Get(c'.result, q)) == KindOf(Get(c.result, q))
              && Get(c'.result, q).childrenValid == (if flag then Get(c.result, q).childrenValid else Some(false))
    ensures forall q | !(q <= c.path) :: Lookup(c'.result, q) == Lookup(c.result, q)
    ensures IsValid(Some(c'.result)) <==> IsValid(Some(c.result)) && flag
  {
    var r := ValidationResult(flag, c.message, c.messageParams);
    RecordFacts(c.result, c.path, ResultKey(c.constraintName), r);
    var c' := c.(result := Record(c.result, c.path, ResultKey(c.constraintName), r));
    assert c.path != [] ==> [] < c.path;
    c'
  }

  /** The container kind a first key selects: a number makes an array, anything else an object. */
  function KindFor(k: Key): Container
  {
    if k.Index? then ArrayLike else ObjectLike
  }

  /**
   * Enters property `k`: a fresh node is hung under the top node (its
   * container created on first use) and pushed on the stack.
   */
  function PushPath(c: Context, k: Key): (c': Context)
    requires Valid(c)
    ensures Valid(c') && c'.path == c.path + [PropertyName(k)] && Top(c') == Fresh()
    ensures c'.constraintName == c.constraintName && c'.message == c.message && c'.messageParams == c.messageParams
    ensures Resolves(c'.result, c.path)
    ensures var a, b := Top(c), Get(c'.result, c.path);
      && b.thisValid == a.thisValid && b.validity == a.validity
      && b.childrenValid == (if a.childrenValid.None? then Some(true) else a.childrenValid)
      && KindOf(b) == (if a.children.None? then Some(KindFor(k)) else KindOf(a))
    ensures forall q | q < c.path ::
              && Resolves(c.result, q) && Resolves(c'.result, q)
              && SameLocal(Get(c.result, q), Get(c'.result, q))
    ensures forall q | !(q <= c.path) && !(c'.path <= q) :: Lookup(c'.result, q) == Lookup(c.result, q)
    ensures IsValid(Some(c'.result)) == IsValid(Some(c.result))
  {
    AttachFacts(c.result, c.path, PropertyName(k), KindFor(k));
    var c' := c.(result := Attach(c.result, c.path, PropertyName(k), KindFor(k)), path := c.path + [PropertyName(k)]);
    assert c.path != [] ==> [] < c.path;
    c'
  }

  /** Leaves the current property: the stack loses its top; the tree is untouched. */
  function PopPath(c: Context): (c': Context)
    requires Valid(c) && |c.path| > 0
    ensures Valid(c') && c'.path + [c.path[|c.path| - 1]] == c.path
    ensures c'.result == c.result
  {
    ResolvesPrefix(c.result, c.path, c.path[..|c.path| - 1]);
    c.(path := c.path[..|c.path| - 1])
  }

  /**
   * A message set while a constraint runs travels with its verdict, and the
   * next constraint starts without it.
   */
  lemma MessageTravelsWithVerdict(c: Context, name: Option<string>, msg: Option<string>, params: Option<string>, flag: bool)
    requires Valid(c)
    ensures var c' := AddResult(SetMessageParams(SetMessage(SetCurrentConstraintName(c, name), msg), params), flag);
      && Results(Top(c'))[ResultKey(name)] == ValidationResult(flag, msg, params)
      && SetCurrentConstraintName(c', None).message.None? && SetCurrentConstraintName(c', None).messageParams.None?
  {
  }

  /** The context operations, for reasoning about arbitrary sequences of them. */
  datatype Op = SetName(name: Option<string>) | Message(msg: Option<string>) | MessageParams(params: Option<string>)
    | Add(flag: bool) | Push(key: Key) | Pop

  /** One operation; `None` when `popPath` would empty the stack. */
  function Apply(c: Context, op: Op): (r: Option<Context>)
    requires Valid(c)
    ensures r.Some? ==> Valid(r.value)
  {
    match op
    case SetName(n) => Some(SetCurrentConstraintName(c, n))
    case Message(m) => Some(SetMessage(c, m))
    case MessageParams(m) => Some(SetMessageParams(c, m))
    case Add(f) => Some(AddResult(c, f))
    case Push(k) => Some(PushPath(c, k))
    case Pop => if |c.path| > 0 then Some(PopPath(c)) else None
  }

  function ApplyAll(c: Context, ops: seq<Op>): (r: Option<Context>)
    requires Valid(c)
    ensures r.Some? ==> Valid(r.value)
    decreases |ops|
  {
    if ops == [] then Some(c)
    else match Apply(c, ops[0])
      case None => None
      case Some(c1) => ApplyAll(c1, ops[1..])
  }

  /** `b` has kept every failure flag `a` carried. */
  predicate KeepsFailures(a: Node, b: Node)
  {
    (!a.thisValid ==> !b.thisValid) && (a.childrenValid == Some(false) ==> b.childrenValid == Some(false))
  }

  /** No operation turns a false flag of a node on the path stack back to true. */
  lemma FlagsNeverReset(c: Context, op: Op)
    requires Valid(c) && Apply(c, op).Some?
    ensures forall q | q <= c.path && q <= Apply(c, op).value.path ::
      Resolves(c.result, q) && Resolves(Apply(c, op).value.result, q)
      && KeepsFailures(Get(c.result, q), Get(Apply(c, op).value.result, q))
  {
    var c' := Apply(c, op).value;
    forall q | q <= c.path && q <= c'.path
      ensures Resolves(c.result, q) && Resolves(c'.result, q)
      ensures KeepsFailures(Get(c.result, q), Get(c'.result, q))
    {
      ResolvesPrefix(c.result, c.path, q);
      ResolvesPrefix(c'.result, c'.path, q);
      if q == c.path {
      } else {
        assert q < c.path;
      }
    }
  }

  /** The root is never replaced, so a failure recorded anywhere in a run stays visible at the root. */
  lemma {:induction false} RootKeepsFailures(c: Context, ops: seq<Op>)
    requires Valid(c) && ApplyAll(c, ops).Some?
    ensures KeepsFailures(c.result, ApplyAll(c, ops).value.result)
    decreases |ops|
  {
    if ops != [] {
      var c1 := Apply(c, ops[0]).value;
      FlagsNeverReset(c, ops[0]);
      assert [] <= c.path && [] <= c1.path;
      RootKeepsFailures(c1, ops[1..]);
    }
  }
}

=== FILE: controller.dfy ===
/**
 * The pure helpers of `ValidateController`: the meaning of `isValid`
 * (defined as `ResultTree.IsValid`) and `skipIndex`, which turns the type
 * of an array property into the type of its elements.
 */
module Controller {
  import opened Wrappers
  import opened ResultTree

  /**
   * `isValid` reads the three states of `_childrenValid` as two: only an
   * explicit `false` below makes a node invalid, and `null` is valid.
   */
  lemma IsValidMeaning(n: Node)
    ensures IsValid(Some(n)) <==> n.thisValid && n.childrenValid != Some(false)
    ensures IsValid(None)
    ensures IsValid(Some(Fresh()))
  {
    match n.childrenValid
    case None =>
    case Some(b) => assert b || n.childrenValid == Some(false);
  }

  /** The two characters `[]` start at position `j` of `s`. */
  predicate PairAt(s: string, j: int)
  {
    0 <= j && j + 1 < |s| && s[j] == '[' && s[j + 1] == ']'
  }

  /** `s.indexOf('[]', from)`: the first position at or after `from` where `[]` starts, or -1. */
  function IndexOfPair(s: string, from: nat): (r: int)
    requires from <= |s|
    ensures r == -1 || (from <= r && PairAt(s, r))
    ensures r == -1 ==> forall j | from <= j < |s| :: !PairAt(s, j)
    ensures r >= 0 ==> forall j | from <= j < r :: !PairAt(s, j)
    decreases |s| - from
  {
    if from + 1 >= |s| then -1
    else if PairAt(s, from) then from
    else IndexOfPair(s, from + 1)
  }

  /** JavaScript's clamping of a `substring` bound to `[0, len]`. */
  function Clamp(i: int, len: nat): (r: nat)
    ensures r <= len
    ensures 0 <= i <= len ==> r == i
  {
    if i < 0 then 0 else if i > len then len else i
  }

  /** `s.substring(a, b)`: bounds clamped, and swapped when out of order. */
  function Substring(s: string, a: int, b: int): (r: string)
    ensures 0 <= a <= b <= |s| ==> r == s[a..b]
    ensures |r| <= |s|
  {
    var x, y := Clamp(a, |s|), Clamp(b, |s|);
    if x <= y then s[x..y] else s[y..x]
  }

  /**
   * `skipIndex` as written: a non-empty type whose first `[]` sits at
   * position `length - 2` loses its last two characters. For a one-letter
   * type both sides are -1.
   */
  function SkipIndexAsWritten(childType: Option<string>): (r: Option<string>)
    ensures childType.None? || childType == Some("") ==> r == childType
    ensures childType.Some? && |childType.value| == 1 ==> r == Some("")
    ensures childType.Some? && |childType.value| >= 2 && !IsArrayType(childType.value) ==> r == childType
    ensures childType.Some? && IsArrayType(childType.value)
              && (forall j | 0 <= j < |childType.value| - 2 :: !PairAt(childType.value, j)) ==>
            r.Some? && r.value + "[]" == childType.value
    ensures childType.Some? && (exists j | 0 <= j < |childType.value| - 2 :: PairAt(childType.value, j)) ==> r == childType
  {
    if childType.None? || childType.value == "" then childType
    else
      var t := childType.value;
      assert IsArrayType(t) ==> PairAt(t, |t| - 2) && t[..|t| - 2] + "[]" == t;
      if IndexOfPair(t, 0) == |t| - 2 then Some(Substring(t, 0, |t| - 2)) else childType
  }

  /** A one-letter type name is erased. */
  lemma SkipIndexErasesShortName()
    ensures SkipIndexAsWritten(Some("A")) == Some("")
  {
  }

  /** An array of arrays keeps both levels: its first `[]` is not the last one. */
  lemma SkipIndexMissesNestedArray()
    ensures SkipIndexAsWritten(Some("A[][]")) == Some("A[][]")
  {
    assert !PairAt("A[][]", 0) && PairAt("A[][]", 1);
  }

  /** The type names an array: it ends in `[]`. */
  predicate IsArrayType(t: string)
  {
    |t| >= 2 && t[|t| - 2] == '[' && t[|t| - 1] == ']'
  }

  /** `skipIndex` as intended: the type of an array loses exactly its final `[]`; any other type is kept. */
  function SkipIndex(childType: Option<string>): (r: Option<string>)
    ensures childType.Some? && IsArrayType(childType.value) ==> r.Some? && r.value + "[]" == childType.value
    ensures !(childType.Some? && IsArrayType(childType.value)) ==> r == childType
  {
    if childType.Some? && IsArrayType(childType.value) then
      var t := childType.value;
      assert t[..|t| - 2] + "[]" == t;
      Some(t[..|t| - 2])
    else childType
  }

  /** The element type of `T[]` is `T`, whatever `T` is, nested arrays included. */
  lemma SkipIndexElementType(t: string)
    ensures SkipIndex(Some(t + "[]")) == Some(t)
  {
    var a := t + "[]";
    assert IsArrayType(a);
    assert a[..|a| - 2] == t;
  }

  /**
   * The two agree on every type other than a one-letter name or one with a
   * `[]` before its last two characters.
   */
  lemma SkipIndexAgree(childType: Option<string>)
    requires childType.Some? ==> |childType.value| != 1
    requires childType.Some? ==> forall j | 0 <= j < |childType.value| - 2 :: !PairAt(childType.value, j)
    ensures SkipIndexAsWritten(childType) == SkipIndex(childType)
  {
    if childType.Some? && |childType.value| >= 2 {
      var t := childType.value;
      var i := IndexOfPair(t, 0);
      assert IsArrayType(t) <==> PairAt(t, |t| - 2);
      assert i == |t| - 2 <==> PairAt(t, |t| - 2);
    }
  }
}

=== FILE: evaluator.dfy ===
/**
 * `evaluateConstraints`: the normalised constraints of one value, run in
 * declared order against a validation context.
 */
module Evaluator {
  import opened Wrappers
  import opened Values
  import opened ResultTree
  import opened ValidationContext
  import opened Constraints

  /** What a validator or condition returned: the literal `true`, the literal `false`, or anything else. */
  datatype Verdict = Holds | Fails | NoVerdict

  /** Calling a function value with the value under validation and the constraint's parameters. */
  type Runner = (FnRef, Value, Params) -> Verdict

  /** A `condition` that returns the literal `false` bypasses its constraint. */
  predicate Bypassed(run: Runner, c: Constraint, value: Value)
  {
    c.params.condition.Some? && run(c.params.condition.value, value, c.params) == Fails
  }

  /** The constraint is not bypassed and belongs to a requested group, so its validator is called. */
  predicate Applies(run: Runner, c: Constraint, value: Value, groups: seq<string>)
  {
    !Bypassed(run, c, value) && InGroups(c, groups)
  }

  function VerdictOf(run: Runner, c: Constraint, value: Value): Verdict
  {
    match c.validator
    case Callable(f) => run(f, value, c.params)
    case NotCallable => NoVerdict
  }

  /** The constraint is called and says the value is invalid. */
  predicate FailsOn(run: Runner, c: Constraint, value: Value, groups: seq<string>)
  {
    Applies(run, c, value, groups) && VerdictOf(run, c, value) == Fails
  }

  /** The constraint is called and returns a boolean, so a result is recorded for it. */
  predicate Records(run: Runner, c: Constraint, value: Value, groups: seq<string>)
  {
    Applies(run, c, value, groups) && VerdictOf(run, c, value) != NoVerdict
  }

  predicate NoFailure(run: Runner, cs: seq<Constraint>, value: Value, groups: seq<string>)
  {
    forall i | 0 <= i < |cs| :: !FailsOn(run, cs[i], value, groups)
  }

  lemma NoFailureCons(run: Runner, cs: seq<Constraint>, value: Value, groups: seq<string>)
    requires cs != []
    ensures NoFailure(run, cs, value, groups) <==> !FailsOn(run, cs[0], value, groups) && NoFailure(run, cs[1..], value, groups)
  {
    assert forall i | 1 <= i < |cs| :: cs[i] == cs[1..][i - 1];
  }

  /**
   * One constraint that is called (lines 639-644 of the loop): its key
   * becomes the current constraint name, a boolean verdict is recorded
   * under that key with the message just cleared, and the name is cleared again.
   */
  function RunOne(run: Runner, ctx: Context, c: Constraint, value: Value): (c': Context)
    requires Valid(ctx) && c.validator.Callable?
    ensures Valid(c') && c'.path == ctx.path && c'.constraintName.None?
    ensures Results(Top(c')) == if VerdictOf(run, c, value) == NoVerdict then Results(Top(ctx))
      else Results(Top(ctx))[c.key := ValidationResult(VerdictOf(run, c, value) == Holds, None, None)]
    ensures Top(c').thisValid == (Top(ctx).thisValid && VerdictOf(run, c, value) != Fails)
    ensures Top(c').childrenValid == Top(ctx).childrenValid
    ensures IsValid(Some(c'.result)) <==> IsValid(Some(ctx.result)) && VerdictOf(run, c, value) != Fails
    ensures forall q | q < ctx.path ::
              && Resolves(ctx.result, q) && Resolves(c'.result, q)
              && Get(c'.result, q).thisValid == Get(ctx.result, q).thisValid
              && Get(c'.result, q).childrenValid
                 == (if VerdictOf(run, c, value) != Fails then Get(ctx.result, q).childrenValid else Some(false))
    ensures forall q | !(q <= ctx.path) :: Lookup(c'.result, q) == Lookup(ctx.result, q)
  {
    var c1 := SetCurrentConstraintName(ctx, Some(c.key));
    var res := run(c.validator.f, value, c.params);
    var c2 := if res == NoVerdict then c1 else AddResult(c1, res == Holds);
    if res == NoVerdict then
      forall q | q < ctx.path ensures Resolves(ctx.result, q) { ResolvesPrefix(ctx.result, ctx.path, q); }
      SetCurrentConstraintName(c2, None)
    else
      SetCurrentConstraintName(c2, None)
  }

  /** The context after the loop, and whether the eager `break` ended it. */
  datatype Step = Step(ctx: Context, stopped: bool)

  /**
   * The loop of `evaluateConstraints` over normalised constraints: it
   * throws exactly when it reaches a called constraint whose validator is
   * not a function, and with `eager` it breaks exactly when some called
   * constraint fails.
   */
  function EvalList(run: Runner, ctx: Context, cs: seq<Constraint>, value: Value, eager: bool, groups: seq<string>): (r: Result<Step, Error>)
    requires Valid(ctx)
    ensures r.Ok? ==> Valid(r.value.ctx) && r.value.ctx.path == ctx.path
    ensures r.Ok? ==> (r.value.stopped <==> eager && !NoFailure(run, cs, value, groups))
    ensures r.Err? ==> exists i | 0 <= i < |cs| ::
              Applies(run, cs[i], value, groups) && cs[i].validator.NotCallable? && r.error == NotAFunction(cs[i].key)
    ensures (forall i | 0 <= i < |cs| :: Applies(run, cs[i], value, groups) ==> cs[i].validator.Callable?) ==> r.Ok?
    decreases |cs|
  {
    if cs == [] then Ok(Step(ctx, false))
    else
      var c := cs[0];
      NoFailureCons(run, cs, value, groups);
      assert forall i | 1 <= i < |cs| :: cs[i] == cs[1..][i - 1];
      if Bypassed(run, c, value) then EvalList(run, ctx, cs[1..], value, eager, groups)
      else if !InGroups(c, groups) then EvalList(run, ctx, cs[1..], value, eager, groups)
      else match c.validator
        case NotCallable => Err(NotAFunction(c.key))
        case Callable(f) =>
          var c3 := RunOne(run, ctx, c, value);
          if eager && run(f, value, c.params) == Fails then Ok(Step(c3, true))
          else EvalList(run, c3, cs[1..], value, eager, groups)
  }

  /** One unfolding of the loop: a constraint that is not called leaves the context as it was. */
  lemma EvalListSkip(run: Runner, ctx: Context, cs: seq<Constraint>, value: Value, eager: bool, groups: seq<string>)
    requires Valid(ctx) && cs != [] && !(Applies(run, cs[0], value, groups) && cs[0].validator.Callable?)
    requires EvalList(run, ctx, cs, value, eager, groups).Ok?
    ensures EvalList(run, ctx, cs, value, eager, groups) == EvalList(run, ctx, cs[1..], value, eager, groups)
  {
  }

  /** One unfolding of the loop: a called constraint runs, then the loop breaks or goes on. */
  lemma EvalListRun(run: Runner, ctx: Context, cs: seq<Constraint>, value: Value, eager: bool, groups: seq<string>)
    requires Valid(ctx) && cs != [] && Applies(run, cs[0], value, groups) && cs[0].validator.Callable?
    ensures EvalList(run, ctx, cs, value, eager, groups)
         == if eager && VerdictOf(run, cs[0], value) == Fails then Ok(Step(RunOne(run, ctx, cs[0], value), true))
            else EvalList(run, RunOne(run, ctx, cs[0], value), cs[1..], value, eager, groups)
  {
  }

  /**
   * How the loop changes the top node and the whole tree: the top node's own
   * flag and the tree's overall validity drop exactly when some called
   * constraint fails.
   */
  lemma {:induction false} EvalListValidity(run: Runner, ctx: Context, cs: seq<Constraint>, value: Value, eager: bool, groups: seq<string>)
    requires Valid(ctx) && EvalList(run, ctx, cs, value, eager, groups).Ok?
    ensures var out := EvalList(run, ctx, cs, value, eager, groups).value.ctx;
      && (Top(out).thisValid <==> Top(ctx).thisValid && NoFailure(run, cs, value, groups))
      && Top(out).childrenValid == Top(ctx).childrenValid
      && (IsValid(Some(out.result)) <==> IsValid(Some(ctx.result)) && NoFailure(run, cs, value, groups))
    decreases |cs|
  {
    if cs != [] {
      var c := cs[0];
      NoFailureCons(run, cs, value, groups);
      if Applies(run, c, value, groups) && c.validator.Callable? {
        EvalListRun(run, ctx, cs, value, eager, groups);
        var c3 := RunOne(run, ctx, c, value);
        if !(eager && VerdictOf(run, c, value) == Fails) {
          EvalListValidity(run, c3, cs[1..], value, eager, groups);
        }
      } else {
        EvalListSkip(run, ctx, cs, value, eager, groups);
        EvalListValidity(run, ctx, cs[1..], value, eager, groups);
      }
    }
  }

  /** A failure lowers `childrenValid` of every node below the top on the stack; nothing else changes there. */
  lemma {:induction false} EvalListAncestors(run: Runner, ctx: Context, cs: seq<Constraint>, value: Value, eager: bool, groups: seq<string>, q: seq<string>)
    requires Valid(ctx) && EvalList(run, ctx, cs, value, eager, groups).Ok? && q < ctx.path
    ensures var out := EvalList(run, ctx, cs, value, eager, groups).value.ctx;
      && Resolves(ctx.result, q) && Resolves(out.result, q)
      && Get(out.result, q).thisValid == Get(ctx.result, q).thisValid
      && Get(out.result, q).childrenValid
         == (if NoFailure(run, cs, value, groups) then Get(ctx.result, q).childrenValid else Some(false))
    decreases |cs|
  {
    ResolvesPrefix(ctx.result, ctx.path, q);
    if cs != [] {
      var c := cs[0];
      NoFailureCons(run, cs, value, groups);
      if Applies(run, c, value, groups) && c.validator.Callable? {
        EvalListRun(run, ctx, cs, value, eager, groups);
        var c3 := RunOne(run, ctx, c, value);
        if !(eager && VerdictOf(run, c, value) == Fails) {
          EvalListAncestors(run, c3, cs[1..], value, eager, groups, q);
        }
      } else {
        EvalListSkip(run, ctx, cs, value, eager, groups);
        EvalListAncestors(run, ctx, cs[1..], value, eager, groups, q);
      }
    }
  }

  /** The loop changes no node off the path stack. */
  lemma {:induction false} EvalListElsewhere(run: Runner, ctx: Context, cs: seq<Constraint>, value: Value, eager: bool, groups: seq<string>, q: seq<string>)
    requires Valid(ctx) && EvalList(run, ctx, cs, value, eager, groups).Ok? && !(q <= ctx.path)
    ensures Lookup(EvalList(run, ctx, cs, value, eager, groups).value.ctx.result, q) == Lookup(ctx.result, q)
    decreases |cs|
  {
    if cs != [] {
      var c := cs[0];
      if Applies(run, c, value, groups) && c.validator.Callable? {
        EvalListRun(run, ctx, cs, value, eager, groups);
        var c3 := RunOne(run, ctx, c, value);
        if !(eager && VerdictOf(run, c, value) == Fails) {
          EvalListElsewhere(run, c3, cs[1..], value, eager, groups, q);
        }
      } else {
        EvalListSkip(run, ctx, cs, value, eager, groups);
        EvalListElsewhere(run, ctx, cs[1..], value, eager, groups, q);
      }
    }
  }

  /** The groups to run: `null` means `Validator.DEFAULT_GROUPS`. */
  function RequestedGroups(groups: Option<seq<string>>): seq<string>
  {
    if groups.Some? then groups.value else DefaultGroups
  }

  /**
   * The reference meaning of "these declared constraints pass on this
   * value": there are none, or they all normalise and none that applies fails.
   */
  predicate Passes(run: Runner, registry: Registry, raws: Option<seq<RawConstraint>>, value: Value, groups: Option<seq<string>>)
  {
    raws.None?
    || (NormalizeAll(registry, raws.value).Ok?
        && NoFailure(run, NormalizeAll(registry, raws.value).value, value, RequestedGroups(groups)))
  }

  /**
   * `evaluateConstraints`. Missing constraints (`null`/`undefined`) do
   * nothing; otherwise all declarations are normalised before any of them
   * runs, so an unknown validator name throws whatever the verdicts would be.
   */
  function EvaluateConstraints(run: Runner, registry: Registry, ctx: Context, raws: Option<seq<RawConstraint>>,
                               value: Value, eager: bool, groups: Option<seq<string>>): (r: Result<Context, Error>)
    requires Valid(ctx)
    ensures raws.None? ==> r == Ok(ctx)
    ensures raws.Some? && NormalizeAll(registry, raws.value).Err? ==> r == Err(NormalizeAll(registry, raws.value).error)
    ensures r.Err? && r.error.NotAFunction? ==> raws.Some? && NormalizeAll(registry, raws.value).Ok?
    ensures r.Ok? ==> Valid(r.value) && r.value.path == ctx.path
  {
    if raws.None? then Ok(ctx)
    else
      var cs :- NormalizeAll(registry, raws.value);
      var step :- EvalList(run, ctx, cs, value, eager, RequestedGroups(groups));
      Ok(step.ctx)
  }

  /** `EvalListValidity` for the whole of `evaluateConstraints`, failures read off the declarations. */
  lemma EvaluateConstraintsValidity(run: Runner, registry: Registry, ctx: Context, raws: Option<seq<RawConstraint>>,
                                    value: Value, eager: bool, groups: Option<seq<string>>)
    requires Valid(ctx) && EvaluateConstraints(run, registry, ctx, raws, value, eager, groups).Ok?
    ensures var out := EvaluateConstraints(run, registry, ctx, raws, value, eager, groups).value;
      && (Top(out).thisValid <==> Top(ctx).thisValid && Passes(run, registry, raws, value, groups))
      && (IsValid(Some(out.result)) <==> IsValid(Some(ctx.result)) && Passes(run, registry, raws, value, groups))
    ensures var out := EvaluateConstraints(run, registry, ctx, raws, value, eager, groups).value;
      forall q | q < ctx.path ::
        && Resolves(ctx.result, q) && Resolves(out.result, q)
        && Get(out.result, q).thisValid == Get(ctx.result, q).thisValid
        && Get(out.result, q).childrenValid
           == (if Passes(run, registry, raws, value, groups) then Get(ctx.result, q).childrenValid else Some(false))
    ensures var out := EvaluateConstraints(run, registry, ctx, raws, value, eager, groups).value;
      forall q | !(q <= ctx.path) :: Lookup(out.result, q) == Lookup(ctx.result, q)
  {
    var out := EvaluateConstraints(run, registry, ctx, raws, value, eager, groups).value;
    if raws.None? {
      forall q | q < ctx.path ensures Resolves(ctx.result, q) { ResolvesPrefix(ctx.result, ctx.path, q); }
    } else {
      var cs := NormalizeAll(registry, raws.value).value;
      var gs := RequestedGroups(groups);
      assert out == EvalList(run, ctx, cs, value, eager, gs).value.ctx;
      EvalListValidity(run, ctx, cs, value, eager, gs);
      forall q | q < ctx.path
        ensures Resolves(ctx.result, q) && Resolves(out.result, q)
        ensures Get(out.result, q).thisValid == Get(ctx.result, q).thisValid
        ensures Get(out.result, q).childrenValid
             == (if Passes(run, registry, raws, value, groups) then Get(ctx.result, q).childrenValid else Some(false))
      {
        EvalListAncestors(run, ctx, cs, value, eager, gs, q);
      }
      forall q | !(q <= ctx.path) ensures Lookup(out.result, q) == Lookup(ctx.result, q) {
        EvalListElsewhere(run, ctx, cs, value, eager, gs, q);
      }
    }
  }

  /** The value recorded for key `k` at a node, if any. */
  function Find(m: map<string, ValidationResult>, k: string): Option<ValidationResult>
  {
    if k in m then Some(m[k]) else None
  }

  /**
   * A key none of whose constraints records anything (each is bypassed by
   * its condition, outside the requested groups, or returns a non-boolean)
   * keeps whatever entry it had in `_validity`.
   */
  lemma {:induction false} UnrecordedKeyUntouched(run: Runner, ctx: Context, cs: seq<Constraint>, value: Value,
                                                  eager: bool, groups: seq<string>, k: string)
    requires Valid(ctx) && EvalList(run, ctx, cs, value, eager, groups).Ok?
    requires forall i | 0 <= i < |cs| :: cs[i].key == k ==> !Records(run, cs[i], value, groups)
    ensures Find(Results(Top(EvalList(run, ctx, cs, value, eager, groups).value.ctx)), k) == Find(Results(Top(ctx)), k)
    decreases |cs|
  {
    if cs != [] {
      assert forall i | 1 <= i < |cs| :: cs[i] == cs[1..][i - 1];
      var c := cs[0];
      if !Bypassed(run, c, value) && InGroups(c, groups) && c.validator.Callable? {
        var c3 := RunOne(run, ctx, c, value);
        var res := run(c.validator.f, value, c.params);
        assert Find(Results(Top(c3)), k) == Find(Results(Top(ctx)), k);
        if !(eager && res == Fails) {
          UnrecordedKeyUntouched(run, c3, cs[1..], value, eager, groups, k);
        }
      } else {
        UnrecordedKeyUntouched(run, ctx, cs[1..], value, eager, groups, k);
      }
    }
  }

  /**
   * Without `eager`, the entry of a key is the verdict of the last of its
   * constraints that records one, with the message cleared when that
   * constraint began.
   */
  lemma {:induction false} LastVerdictRecorded(run: Runner, ctx: Context, cs: seq<Constraint>, value: Value,
                                               groups: seq<string>, i: nat)
    requires Valid(ctx) && EvalList(run, ctx, cs, value, false, groups).Ok?
    requires i < |cs| && Records(run, cs[i], value, groups)
    requires forall j | i < j < |cs| :: cs[j].key == cs[i].key ==> !Records(run, cs[j], value, groups)
    ensures Find(Results(Top(EvalList(run, ctx, cs, value, false, groups).value.ctx)), cs[i].key)
         == Some(ValidationResult(VerdictOf(run, cs[i], value) == Holds, None, None))
    decreases |cs|
  {
    assert forall j | 1 <= j < |cs| :: cs[j] == cs[1..][j - 1];
    var c := cs[0];
    if !Bypassed(run, c, value) && InGroups(c, groups) && c.validator.Callable? {
      var c3 := RunOne(run, ctx, c, value);
      var res := run(c.validator.f, value, c.params);
      if i == 0 {
        UnrecordedKeyUntouched(run, c3, cs[1..], value, false, groups, c.key);
      } else {
        LastVerdictRecorded(run, c3, cs[1..], value, groups, i - 1);
      }
    } else {
      LastVerdictRecorded(run, ctx, cs[1..], value, groups, i - 1);
    }
  }

  /** Once the loop has stopped (or thrown), constraints appended after the ones it saw are never run. */
  lemma {:induction false} StoppedIgnoresRest(run: Runner, ctx: Context, cs: seq<Constraint>, more: seq<Constraint>,
                                              value: Value, eager: bool, groups: seq<string>)
    requires Valid(ctx)
    requires EvalList(run, ctx, cs, value, eager, groups).Err? || EvalList(run, ctx, cs, value, eager, groups).value.stopped
    ensures EvalList(run, ctx, cs + more, value, eager, groups) == EvalList(run, ctx, cs, value, eager, groups)
    decreases |cs|
  {
    var c := cs[0];
    assert (cs + more)[0] == c && (cs + more)[1..] == cs[1..] + more;
    if !Bypassed(run, c, value) && InGroups(c, groups) && c.validator.Callable? {
      var c3 := RunOne(run, ctx, c, value);
      var res := run(c.validator.f, value, c.params);
      if !(eager && res == Fails) {
        StoppedIgnoresRest(run, c3, cs[1..], more, value, eager, groups);
      }
    } else if !Bypassed(run, c, value) && InGroups(c, groups) {
    } else {
      StoppedIgnoresRest(run, ctx, cs[1..], more, value, eager, groups);
    }
  }

  /** With `eager`, nothing after a failing constraint is evaluated: the run equals the run up to it. */
  lemma EagerEndsAtFailure(run: Runner, ctx: Context, cs: seq<Constraint>, value: Value, groups: seq<string>, i: nat)
    requires Valid(ctx) && i < |cs| && FailsOn(run, cs[i], value, groups)
    ensures EvalList(run, ctx, cs, value, true, groups) == EvalList(run, ctx, cs[..i + 1], value, true, groups)
  {
    var head, tail := cs[..i + 1], cs[i + 1..];
    assert EvalList(run, ctx, head, value, true, groups).Err? || EvalList(run, ctx, head, value, true, groups).value.stopped by {
      assert head[i] == cs[i];
      assert !NoFailure(run, head, value, groups);
    }
    StoppedIgnoresRest(run, ctx, head, tail, value, true, groups);
    assert head + tail == cs;
  }
}

=== FILE: result_tree.dfy ===
/**
 * The result tree a `ValidationContext` accumulates (its `result` member):
 * one node per visited property path, holding the verdicts recorded for
 * that property and the aggregated validity flags.
 */
module ResultTree {
  import opened Wrappers

  /** The outcome of one constraint on one property. */
  datatype ValidationResult = ValidationResult(isValid: bool, message: Option<string>, params: Option<string>)

  /** `_children` is a JavaScript array or a plain object. */
  datatype Container = ArrayLike | ObjectLike

  /**
   * A node `{_thisValid, _childrenValid, _validity, _children}`.
   * `childrenValid == None` is the absent `_childrenValid` member; `validity`
   * and `children` are `None` while they are still `null`. Children are keyed
   * by property-name string, as JavaScript stores them.
   */
  datatype Node = Node(
    thisValid: bool,
    childrenValid: Option<bool>,
    validity: Option<map<string, ValidationResult>>,
    children: Option<Children>)

  datatype Children = Children(kind: Container, entries: map<string, Node>)

  /** The node created for a path segment just entered, and the initial root. */
  function Fresh(): Node
  {
    Node(true, None, None, None)
  }

  /**
   * The controller's overall-validity rule: no node at all counts as valid;
   * otherwise the node's own constraints must hold and `_childrenValid` must
   * be absent or `true`.
   */
  predicate IsValid(results: Option<Node>)
  {
    results.None? || (results.value.thisValid && (results.value.childrenValid.None? || results.value.childrenValid == Some(true)))
  }

  /** The recorded verdicts of a node; a `null` `_validity` has none. */
  function Results(n: Node): map<string, ValidationResult>
  {
    if n.validity.Some? then n.validity.value else map[]
  }

  function KindOf(n: Node): Option<Container>
  {
    if n.children.Some? then Some(n.children.value.kind) else None
  }

  function ChildAt(n: Node, name: string): Option<Node>
  {
    if n.children.Some? && name in n.children.value.entries then Some(n.children.value.entries[name]) else None
  }

  /** The node reached from `n` by following the property names of `p`. */
  function Lookup(n: Node, p: seq<string>): Option<Node>
    decreases |p|
  {
    if p == [] then Some(n)
    else match ChildAt(n, p[0])
      case None => None
      case Some(c) => Lookup(c, p[1..])
  }

  predicate Resolves(n: Node, p: seq<string>)
  {
    Lookup(n, p).Some?
  }

  function Get(n: Node, p: seq<string>): Node
    requires Resolves(n, p)
  {
    Lookup(n, p).value
  }

  function SetChild(n: Node, name: string, c: Node): Node
    requires n.children.Some?
  {
    n.(children := Some(n.children.value.(entries := n.children.value.entries[name := c])))
  }

  /** Two nodes agree on everything but which nodes hang below them. */
  predicate SameLocal(a: Node, b: Node)
  {
    a.thisValid == b.thisValid && a.childrenValid == b.childrenValid && a.validity == b.validity && KindOf(a) == KindOf(b)
  }

  /**
   * Records verdict `r` under `name` at the node reached by `p`; on a
   * failing verdict that node's own flag and every ancestor's
   * `childrenValid` become false.
   */
  function Record(n: Node, p: seq<string>, name: string, r: ValidationResult): Node
    requires Resolves(n, p)
    decreases |p|
  {
    if p == [] then
      n.(validity := Some(Results(n)[name := r]), thisValid := n.thisValid && r.isValid)
    else
      var c := ChildAt(n, p[0]).value;
      var n1 := SetChild(n, p[0], Record(c, p[1..], name, r));
      if r.isValid then n1 else n1.(childrenValid := Some(false))
  }

  /**
   * Hangs a fresh node under `name` below the node reached by `p`, creating
   * its container with kind `kind` if there is none yet and initialising its
   * `childrenValid` if it is absent. An existing child of that name is replaced.
   */
  function Attach(n: Node, p: seq<string>, name: string, kind: Container): Node
    requires Resolves(n, p)
    decreases |p|
  {
    if p == [] then
      var ch := if n.children.Some? then n.children.value else Children(kind, map[]);
      n.(children := Some(ch.(entries := ch.entries[name := Fresh()])),
         childrenValid := if n.childrenValid.None? then Some(true) else n.childrenValid)
    else
      SetChild(n, p[0], Attach(ChildAt(n, p[0]).value, p[1..], name, kind))
  }

  lemma {:induction false} ResolvesPrefix(n: Node, p: seq<string>, q: seq<string>)
    requires Resolves(n, p) && q <= p
    ensures Resolves(n, q)
    decreases |p|
  {
    if q != [] {
      ResolvesPrefix(ChildAt(n, p[0]).value, p[1..], q[1..]);
    }
  }

  /** At the target, `Record` stores the verdict and lowers the node's own flag on failure. */
  lemma {:induction false} RecordTarget(n: Node, p: seq<string>, name: string, r: ValidationResult)
    requires Resolves(n, p)
    ensures Lookup(Record(n, p, name, r), p)
         == Some(Get(n, p).(validity := Some(Results(Get(n, p))[name := r]), thisValid := Get(n, p).thisValid && r.isValid))
    decreases |p|
  {
    if p != [] {
      RecordTarget(ChildAt(n, p[0]).value, p[1..], name, r);
    }
  }

  /** Above the target, `Record` only lowers `childrenValid`, and only on failure. */
  lemma {:induction false} RecordAncestor(n: Node, p: seq<string>, name: string, r: ValidationResult, q: seq<string>)
    requires Resolves(n, p) && q < p
    ensures Resolves(n, q) && Resolves(Record(n, p, name, r), q)
    ensures var a, b := Get(n, q), Get(Record(n, p, name, r), q);
      && b.thisValid == a.thisValid && b.validity == a.validity && KindOf(b) == KindOf(a)
      && b.childrenValid == (if r.isValid then a.childrenValid else Some(false))
    decreases |p|
  {
    ResolvesPrefix(n, p, q);
    if q != [] {
      RecordAncestor(ChildAt(n, p[0]).value, p[1..], name, r, q[1..]);
    }
  }

  /** Away from the path to the target and below it, `Record` changes nothing. */
  lemma {:induction false} RecordElsewhere(n: Node, p: seq<string>, name: string, r: ValidationResult, q: seq<string>)
    requires Resolves(n, p) && !(q <= p)
    ensures Lookup(Record(n, p, name, r), q) == Lookup(n, q)
    decreases |p|
  {
    var n' := Record(n, p, name, r);
    if p == [] {
      assert ChildAt(n', q[0]) == ChildAt(n, q[0]);
    } else if q[0] != p[0] {
      assert ChildAt(n', q[0]) == ChildAt(n, q[0]);
    } else {
      RecordElsewhere(ChildAt(n, p[0]).value, p[1..], name, r, q[1..]);
    }
  }

  /** At the target, `Attach` keeps the container kind and the flags, except that an absent `childrenValid` becomes true. */
  lemma {:induction false} AttachTarget(n: Node, p: seq<string>, name: string, kind: Container)
    requires Resolves(n, p)
    ensures Resolves(Attach(n, p, name, kind), p)
    ensures var a, b := Get(n, p), Get(Attach(n, p, name, kind), p);
      && b.thisValid == a.thisValid && b.validity == a.validity
      && b.childrenValid == (if a.childrenValid.None? then Some(true) else a.childrenValid)
      && KindOf(b) == (if a.children.None? then Some(kind) else KindOf(a))
      && ChildAt(b, name) == Some(Fresh())
    ensures Lookup(Attach(n, p, name, kind), p + [name]) == Some(Fresh())
    decreases |p|
  {
    if p != [] {
      AttachTarget(ChildAt(n, p[0]).value, p[1..], name, kind);
      assert (p + [name])[1..] == p[1..] + [name];
    }
  }

  /** Above the target, `Attach` changes nothing but the nodes hanging below. */
  lemma {:induction false} AttachAncestor(n: Node, p: seq<string>, name: string, kind: Container, q: seq<string>)
    requires Resolves(n, p) && q < p
    ensures Resolves(n, q) && Resolves(Attach(n, p, name, kind), q)
    ensures SameLocal(Get(n, q), Get(Attach(n, p, name, kind), q))
    decreases |p|
  {
    ResolvesPrefix(n, p, q);
    if q != [] {
      AttachAncestor(ChildAt(n, p[0]).value, p[1..], name, kind, q[1..]);
    }
  }

  /** Off the path to the new child, `Attach` changes nothing. */
  lemma {:induction false} AttachElsewhere(n: Node, p: seq<string>, name: string, kind: Container, q: seq<string>)
    requires Resolves(n, p) && !(q <= p) && !(p + [name] <= q)
    ensures Lookup(Attach(n, p, name, kind), q) == Lookup(n, q)
    decreases |p|
  {
    var n' := Attach(n, p, name, kind);
    if p == [] {
      assert p + [name] == [name];
      assert ChildAt(n', q[0]) == ChildAt(n, q[0]);
    } else if q[0] != p[0] {
      assert ChildAt(n', q[0]) == ChildAt(n, q[0]);
    } else {
      assert (p + [name])[1..] == p[1..] + [name];
      assert p + [name] == [p[0]] + (p[1..] + [name]);
      assert q == [q[0]] + q[1..];
      AttachElsewhere(ChildAt(n, p[0]).value, p[1..], name, kind, q[1..]);
    }
  }

  /** Everything `Record` does, in one place: the target, its ancestors and the rest. */
  lemma RecordFacts(n: Node, p: seq<string>, name: string, r: ValidationResult)
    requires Resolves(n, p)
    ensures Lookup(Record(n, p, name, r), p)
         == Some(Get(n, p).(validity := Some(Results(Get(n, p))[name := r]), thisValid := Get(n, p).thisValid && r.isValid))
    ensures forall q | q < p ::
              && Resolves(n, q) && Resolves(Record(n, p, name, r), q)
              && Get(Record(n, p, name, r), q).thisValid == Get(n, q).thisValid
              && Get(Record(n, p, name, r), q).validity == Get(n, q).validity
              && KindOf(Get(Record(n, p, name, r), q)) == KindOf(Get(n, q))
              && Get(Record(n, p, name, r), q).childrenValid == (if r.isValid then Get(n, q).childrenValid else Some(false))
    ensures forall q | !(q <= p) :: Lookup(Record(n, p, name, r), q) == Lookup(n, q)
  {
    RecordTarget(n, p, name, r);
    forall q | q < p
      ensures Resolves(n, q) && Resolves(Record(n, p, name, r), q)
      ensures Get(Record(n, p, name, r), q).thisValid == Get(n, q).thisValid
      ensures Get(Record(n, p, name, r), q).validity == Get(n, q).validity
      ensures KindOf(Get(Record(n, p, name, r), q)) == KindOf(Get(n, q))
      ensures Get(Record(n, p, name, r), q).childrenValid == (if r.isValid then Get(n, q).childrenValid else Some(false))
    {
      RecordAncestor(n, p, name, r, q);
    }
    forall q | !(q <= p)
      ensures Lookup(Record(n, p, name, r), q) == Lookup(n, q)
    {
      RecordElsewhere(n, p, name, r, q);
    }
  }

  /** Everything `Attach` does, in one place: the target, its ancestors and the rest. */
  lemma AttachFacts(n: Node, p: seq<string>, name: string, kind: Container)
    requires Resolves(n, p)
    ensures Resolves(Attach(n, p, name, kind), p)
    ensures var a, b := Get(n, p), Get(Attach(n, p, name, kind), p);
      && b.thisValid == a.thisValid && b.validity == a.validity
      && b.childrenValid == (if a.childrenValid.None? then Some(true) else a.childrenValid)
      && KindOf(b) == (if a.children.None? then Some(kind) else KindOf(a))
    ensures Lookup(Attach(n, p, name, kind), p + [name]) == Some(Fresh())
    ensures forall q | q < p ::
              && Resolves(n, q) && Resolves(Attach(n, p, name, kind), q)
              && SameLocal(Get(n, q), Get(Attach(n, p, name, kind), q))
    ensures forall q | !(q <= p) && !(p + [name] <= q) :: Lookup(Attach(n, p, name, kind), q) == Lookup(n, q)
  {
    AttachTarget(n, p, name, kind);
    forall q | q < p
      ensures Resolves(n, q) && Resolves(Attach(n, p, name, kind), q)
      ensures SameLocal(Get(n, q), Get(Attach(n, p, name, kind), q))
    {
      AttachAncestor(n, p, name, kind, q);
    }
    forall q | !(q <= p) && !(p + [name] <= q)
      ensures Lookup(Attach(n, p, name, kind), q) == Lookup(n, q)
    {
      AttachElsewhere(n, p, name, kind, q);
    }
  }
}

=== FILE: traversal.dfy ===
/**
 * The tree validator: `Validator.validate`, `validateProperties` and
 * `sanitizeProps`. The introspection strategy and the validator registry
 * are collaborators, given here as functions.
 */
module Traversal {
  import opened Wrappers
  import opened Values
  import opened ResultTree
  import opened ValidationContext
  import opened Constraints
  import opened Evaluator

  /** A type key as the introspection strategy understands it. */
  type TypeRef = string

  /**
   * The introspection strategy. `enumerate` lists the property keys
   * `enumerateProps` would call back with, in order; `constraintsOf` is
   * `extractConstraintsFromContext` (`None` for a falsy answer); `evaluate`
   * reads a property; `findType(parentType, propName)`; `shouldDescend` is
   * the optional veto.
   */
  datatype Strategy = Strategy(
    enumerate: (Value, TypeRef) -> seq<Key>,
    constraintsOf: (Value, TypeRef, Key) -> Option<seq<RawConstraint>>,
    evaluate: (Value, Key, TypeRef) -> Value,
    findType: (Option<TypeRef>, Option<Key>) -> TypeRef,
    shouldDescend: Option<(Value, Key, TypeRef) -> bool>)

  /**
   * A `Validator`: its registry and strategy, what calling a function value
   * returns, and `hasValidationErrors`, which the context is asked but which
   * is not defined in this file.
   */
  datatype Engine = Engine(registry: Registry, strategy: Strategy, run: Runner, hasErrors: Context -> bool)

  /**
   * Every object or array read as a property of an object or array is
   * strictly smaller than it: the object graph has no cycles. Other
   * property values are not constrained.
   */
  ghost predicate Acyclic(s: Strategy)
  {
    forall v, k, t :: Composite(v) && Composite(s.evaluate(v, k, t)) ==> Size(s.evaluate(v, k, t)) < Size(v)
  }

  /** Any strategy that reads properties as `ReadProperty` does meets `Acyclic`, whatever its other parts. */
  lemma ReadingStrategyAcyclic(enumerate: (Value, TypeRef) -> seq<Key>,
                               constraintsOf: (Value, TypeRef, Key) -> Option<seq<RawConstraint>>,
                               findType: (Option<TypeRef>, Option<Key>) -> TypeRef,
                               shouldDescend: Option<(Value, Key, TypeRef) -> bool>)
    ensures Acyclic(Strategy(enumerate, constraintsOf, (v, k, t) => ReadProperty(v, k), findType, shouldDescend))
  {
    var s := Strategy(enumerate, constraintsOf, (v, k, t) => ReadProperty(v, k), findType, shouldDescend);
    forall v, k, t | Composite(v) && Composite(s.evaluate(v, k, t))
      ensures Size(s.evaluate(v, k, t)) < Size(v)
    {
      ReadPropertySmaller(v, k);
    }
  }

  /** A positional argument of `validate`, by its JavaScript type. */
  datatype Arg = Undefined | NullArg | Bool(b: bool) | Num(n: int) | StrArg(s: string) | Array(items: seq<string>)

  /** `x == null`: true of `null` and `undefined`. */
  predicate Nullish(a: Arg)
  {
    a.Undefined? || a.NullArg?
  }

  /** The non-null arguments, in their original order. */
  function NonNull(xs: seq<Arg>): (r: seq<Arg>)
    ensures forall a :: a in r <==> a in xs && !Nullish(a)
    ensures |r| <= |xs|
    decreases |xs|
  {
    if xs == [] then []
    else (if Nullish(xs[0]) then [] else [xs[0]]) + NonNull(xs[1..])
  }

  /** The filter keeps the order: it distributes over concatenation. */
  lemma {:induction false} NonNullAppend(a: seq<Arg>, b: seq<Arg>)
    ensures NonNull(a + b) == NonNull(a) + NonNull(b)
    decreases |a|
  {
    if a == [] {
      assert a + b == b;
    } else {
      assert (a + b)[0] == a[0] && (a + b)[1..] == a[1..] + b;
      NonNullAppend(a[1..], b);
    }
  }

  /** Without null elements, the filter keeps every element in place. */
  lemma {:induction false} NonNullKeepsAll(xs: seq<Arg>)
    requires forall i | 0 <= i < |xs| :: !Nullish(xs[i])
    ensures NonNull(xs) == xs
    decreases |xs|
  {
    if xs != [] {
      NonNullKeepsAll(xs[1..]);
    }
  }

  /**
   * `sanitizeProps`: `null` when there is no list or it holds nothing but
   * `null`/`undefined`, otherwise the list without those.
   */
  function SanitizeProps(props: Option<seq<Arg>>): (r: Option<seq<Arg>>)
    ensures r.None? <==> props.None? || forall i | 0 <= i < |props.value| :: Nullish(props.value[i])
    ensures r.Some? ==> r.value == NonNull(props.value) && r.value != []
  {
    if props.None? then None
    else
      var kept := NonNull(props.value);
      assert kept == [] <==> forall i | 0 <= i < |props.value| :: Nullish(props.value[i]) by {
        if kept != [] {
          assert kept[0] in kept;
        }
        if exists i | 0 <= i < |props.value| :: !Nullish(props.value[i]) {
          var i :| 0 <= i < |props.value| && !Nullish(props.value[i]);
          assert props.value[i] in kept;
        }
      }
      if kept == [] then None else Some(kept)
  }

  /** The argument a key is compared with by `props.indexOf(propName)`. */
  function ArgOf(k: Key): Arg
  {
    match k
    case Name(s) => StrArg(s)
    case Index(i) => Arg.Num(i)
  }

  /** The allow-list contains the property key (strict equality, so a list element never matches). */
  predicate Allowed(props: seq<Arg>, k: Key)
  {
    ArgOf(k) in props
  }

  /** What `validate` reads off its positional arguments. */
  datatype Options = Options(eager: bool, groups: Option<seq<string>>, props: Option<seq<Arg>>)

  /** `arguments[i + 1]`: the arguments after the model, `undefined` past the end. */
  function ArgAt(args: seq<Arg>, i: nat): Arg
  {
    if i < |args| then args[i] else Undefined
  }

  /** The arguments from position `i` on, or `null` when there are none. */
  function Rest(args: seq<Arg>, i: nat): Option<seq<Arg>>
  {
    if i < |args| then Some(args[i..]) else None
  }

  /**
   * The argument sniffing of `validate` as written: `nparams` starts at 3
   * and drops once for each of eager and groups found missing, and every
   * argument from position `nparams` on is a property name.
   */
  function ParseArgsAsWritten(args: seq<Arg>): (o: Options)
    ensures ArgAt(args, 0).Array? ==> o == Options(false, Some(ArgAt(args, 0).items), Rest(args, 1))
    ensures !ArgAt(args, 0).Array? && ArgAt(args, 1).Array? ==>
      o == Options(ArgAt(args, 0) == Bool(true), Some(ArgAt(args, 1).items), Rest(args, if ArgAt(args, 0).Bool? then 2 else 1))
    ensures !ArgAt(args, 0).Array? && !ArgAt(args, 1).Array? ==>
      o == Options(ArgAt(args, 0) == Bool(true), None, Rest(args, if ArgAt(args, 0).Bool? then 1 else 0))
  {
    var eager0, groups0 := ArgAt(args, 0), ArgAt(args, 1);
    var eager1 := if eager0.Array? then Bool(false) else eager0;
    var groups1 := if eager0.Array? then eager0 else groups0;
    var n1 := if eager0.Array? then 2 else 3;
    var n2 := if groups1.Array? then n1 else n1 - 1;
    var n3 := if eager1.Bool? then n2 else n2 - 1;
    Options(eager1.Bool? && eager1.b, if groups1.Array? then Some(groups1.items) else None, Rest(args, n3 - 1))
  }

  /**
   * The argument sniffing with the groups list never counted among the
   * property names: a list in the third position means the second one was
   * the (possibly absent) eager flag.
   */
  function ParseArgs(args: seq<Arg>): (o: Options)
    ensures ArgAt(args, 0).Array? ==> o == Options(false, Some(ArgAt(args, 0).items), Rest(args, 1))
    ensures !ArgAt(args, 0).Array? && ArgAt(args, 1).Array? ==>
      o == Options(ArgAt(args, 0) == Bool(true), Some(ArgAt(args, 1).items), Rest(args, 2))
    ensures !ArgAt(args, 0).Array? && !ArgAt(args, 1).Array? ==>
      o == Options(ArgAt(args, 0) == Bool(true), None, Rest(args, if ArgAt(args, 0).Bool? then 1 else 0))
  {
    var eager0, groups0 := ArgAt(args, 0), ArgAt(args, 1);
    var eager1 := if eager0.Array? then Bool(false) else eager0;
    var groups1 := if eager0.Array? then eager0 else groups0;
    var n1 := if eager0.Array? then 2 else 3;
    var n2 := if groups1.Array? then n1 else n1 - 1;
    var n3 := if eager1.Bool? || (n1 == 3 && groups1.Array?) then n2 else n2 - 1;
    Options(eager1.Bool? && eager1.b, if groups1.Array? then Some(groups1.items) else None, Rest(args, n3 - 1))
  }

  /** `validateProperties`' answer: the context, and whether the callback returned the literal `false`. */
  datatype Outcome = Outcome(ctx: Context, stop: bool)

  /** Composite values come before the rest in the termination order. */
  function Rank(v: Value): nat
  {
    if Composite(v) then 0 else 1
  }

  /** The property value is an object (not `null`, not a `Date`) and `shouldDescend`, if any, agrees. */
  predicate Descends(s: Strategy, model: Value, ty: TypeRef, key: Key, value: Value)
  {
    Composite(value) && (s.shouldDescend.None? || s.shouldDescend.value(model, key, ty))
  }

  /**
   * `validateProperties`: the enumeration of `model`'s properties, ended
   * early by the first callback that returns `false`. Unless it was ended
   * early, the path stack is back where it started; if it was, the stack
   * may be left deeper.
   */
  function ValidateProperties(e: Engine, ctx: Context, model: Value, ty: TypeRef, eager: bool,
                              groups: Option<seq<string>>, props: Option<seq<Arg>>): (r: Result<Outcome, Error>)
    requires Acyclic(e.strategy) && Valid(ctx)
    ensures r.Ok? ==> Valid(r.value.ctx)
    ensures r.Ok? && !r.value.stop ==> r.value.ctx.path == ctx.path
    ensures r.Ok? && r.value.stop ==> eager && ctx.path <= r.value.ctx.path
    decreases Rank(model), Size(model), 2, 0
  {
    VisitAll(e, ctx, model, ty, eager, groups, SanitizeProps(props), e.strategy.enumerate(model, ty))
  }

  /** The callback over `keys` in order, stopping at the first that returns `false`. */
  function VisitAll(e: Engine, ctx: Context, model: Value, ty: TypeRef, eager: bool,
                    groups: Option<seq<string>>, props: Option<seq<Arg>>, keys: seq<Key>): (r: Result<Outcome, Error>)
    requires Acyclic(e.strategy) && Valid(ctx)
    ensures r.Ok? ==> Valid(r.value.ctx)
    ensures r.Ok? && !r.value.stop ==> r.value.ctx.path == ctx.path
    ensures r.Ok? && r.value.stop ==> eager && ctx.path <= r.value.ctx.path
    decreases Rank(model), Size(model), 1, |keys|
  {
    if keys == [] then Ok(Outcome(ctx, false))
    else
      var o :- Visit(e, ctx, model, ty, eager, groups, props, keys[0]);
      if o.stop then Ok(o) else VisitAll(e, o.ctx, model, ty, eager, groups, props, keys[1..])
  }

  /**
   * The enumeration callback for one property: skipped unless allowed;
   * otherwise its node is entered, its constraints evaluated, its value
   * descended into when it is an object and (with `eager`) no error showed,
   * and the node left again. A nested `false` returns at once, without
   * leaving the node; with `eager`, errors after leaving return `false`.
   */
  function Visit(e: Engine, ctx: Context, model: Value, ty: TypeRef, eager: bool,
                 groups: Option<seq<string>>, props: Option<seq<Arg>>, key: Key): (r: Result<Outcome, Error>)
    requires Acyclic(e.strategy) && Valid(ctx)
    ensures r.Ok? ==> Valid(r.value.ctx)
    ensures r.Ok? && !r.value.stop ==> r.value.ctx.path == ctx.path
    ensures r.Ok? && r.value.stop ==> eager && ctx.path <= r.value.ctx.path
    decreases Rank(model), Size(model), 0, 0
  {
    if props.Some? && !Allowed(props.value, key) then Ok(Outcome(ctx, false))
    else
      var s := e.strategy;
      var raws := s.constraintsOf(model, ty, key);
      var value := s.evaluate(model, key, ty);
      var c1 := PushPath(ctx, key);
      var c2 :- EvaluateConstraints(e.run, e.registry, c1, raws, value, eager, groups);
      if (!eager || !e.hasErrors(c2)) && Descends(s, model, ty, key, value) then
        var sub :- ValidateProperties(e, c2, value, s.findType(Some(ty), Some(key)), eager, groups, None);
        if sub.stop then
          assert ctx.path <= c2.path;
          Ok(sub)
        else Ok(Leave(e, sub.ctx, eager))
      else Ok(Leave(e, c2, eager))
  }

  /** `popPath`, then with `eager` the answer `false` when the context reports errors. */
  function Leave(e: Engine, c: Context, eager: bool): (o: Outcome)
    requires Valid(c) && |c.path| > 0
    ensures Valid(o.ctx) && o.ctx.path == c.path[..|c.path| - 1] && o.ctx.result == c.result
    ensures o.stop == (eager && e.hasErrors(o.ctx))
  {
    var c3 := PopPath(c);
    Outcome(c3, eager && e.hasErrors(c3))
  }

  /**
   * `validate` once its arguments are read: an absent model gives an
   * untouched context; otherwise the properties of the model are validated
   * from the root type.
   */
  function ValidateWith(e: Engine, model: Value, o: Options): (r: Result<Context, Error>)
    requires Acyclic(e.strategy)
    ensures model.Null? ==> r == Ok(NewContext())
    ensures r.Ok? ==> Valid(r.value)
    ensures r.Ok? && !o.eager ==> r.value.path == []
  {
    var ctx := NewContext();
    if model.Null? then Ok(ctx)
    else
      var out :- ValidateProperties(e, ctx, model, e.strategy.findType(None, None), o.eager, o.groups, o.props);
      Ok(out.ctx)
  }

  /** `validate(model, ...args)` as written, with the argument sniffing of `ParseArgsAsWritten`. */
  function ValidateAsWritten(e: Engine, model: Value, args: seq<Arg>): (r: Result<Context, Error>)
    requires Acyclic(e.strategy)
    ensures model.Null? ==> r == Ok(NewContext())
    ensures r.Ok? ==> Valid(r.value)
    ensures r.Ok? && !ParseArgsAsWritten(args).eager ==> r.value.path == []
  {
    ValidateWith(e, model, ParseArgsAsWritten(args))
  }

  /** `validate(model, ...args)` with the corrected argument sniffing of `ParseArgs`. */
  function Validate(e: Engine, model: Value, args: seq<Arg>): (r: Result<Context, Error>)
    requires Acyclic(e.strategy)
    ensures model.Null? ==> r == Ok(NewContext())
    ensures r.Ok? ==> Valid(r.value)
    ensures r.Ok? && !ParseArgs(args).eager ==> r.value.path == []
  {
    ValidateWith(e, model, ParseArgs(args))
  }

  /** `validate`'s argument sniffing as written reads the groups list as a property name when the eager flag is not a boolean. */
  lemma ParseArgsAsWrittenMisreads(args: seq<Arg>)
    requires !ArgAt(args, 0).Array? && !ArgAt(args, 0).Bool? && ArgAt(args, 1).Array?
    ensures ParseArgsAsWritten(args).props == Some(args[1..]) && args[1] == Array(ParseArgsAsWritten(args).groups.value)
    ensures ParseArgs(args).props == Rest(args, 2)
  {
  }

  /** In every other case the two readings agree. */
  lemma ParseArgsAgree(args: seq<Arg>)
    requires ArgAt(args, 0).Array? || ArgAt(args, 0).Bool? || !ArgAt(args, 1).Array?
    ensures ParseArgsAsWritten(args) == ParseArgs(args)
  {
  }

  /** The keys of `keys` the allow-list lets through, in order. */
  function Selected(props: Option<seq<Arg>>, keys: seq<Key>): (r: seq<Key>)
    ensures forall k :: k in r <==> k in keys && (props.None? || Allowed(props.value, k))
    ensures |r| <= |keys|
    decreases |keys|
  {
    if keys == [] then []
    else if props.Some? && !Allowed(props.value, keys[0]) then Selected(props, keys[1..])
    else [keys[0]] + Selected(props, keys[1..])
  }

  /** Keys outside the allow-list leave no trace: the walk is the walk over the allowed keys alone. */
  lemma {:induction false} ExcludedKeysIgnored(e: Engine, ctx: Context, model: Value, ty: TypeRef, eager: bool,
                                               groups: Option<seq<string>>, props: Option<seq<Arg>>, keys: seq<Key>)
    requires Acyclic(e.strategy) && Valid(ctx)
    ensures VisitAll(e, ctx, model, ty, eager, groups, props, keys)
         == VisitAll(e, ctx, model, ty, eager, groups, props, Selected(props, keys))
    decreases |keys|
  {
    if keys != [] {
      ExcludedKeysIgnored(e, ctx, model, ty, eager, groups, props, keys[1..]);
      if !(props.Some? && !Allowed(props.value, keys[0])) {
        var o := Visit(e, ctx, model, ty, eager, groups, props, keys[0]);
        if o.Ok? && !o.value.stop {
          ExcludedKeysIgnored(e, o.value.ctx, model, ty, eager, groups, props, keys[1..]);
        }
      }
    }
  }

  /** An allow-list holding only a list matches no key, so the walk touches no property. */
  lemma ListAllowListWalksNothing(e: Engine, ctx: Context, model: Value, ty: TypeRef, eager: bool,
                                  groups: Option<seq<string>>, gs: seq<string>)
    requires Acyclic(e.strategy) && Valid(ctx)
    ensures ValidateProperties(e, ctx, model, ty, eager, groups, Some([Array(gs)])) == Ok(Outcome(ctx, false))
  {
    var props := Some([Array(gs)]);
    assert SanitizeProps(props) == props by {
      assert NonNull([Array(gs)]) == [Array(gs)];
    }
    var keys := e.strategy.enumerate(model, ty);
    ExcludedKeysIgnored(e, ctx, model, ty, eager, groups, props, keys);
    assert Selected(props, keys) == [] by {
      forall k ensures !Allowed(props.value, k) {
        assert ArgOf(k) != Array(gs);
      }
    }
  }

  /**
   * With the arguments `(null, groups)`, the sniffing as written leaves
   * nothing to validate: whatever the model, the walk touches no property.
   */
  lemma AsWrittenValidatesNothing(e: Engine, ctx: Context, model: Value, ty: TypeRef, gs: seq<string>)
    requires Acyclic(e.strategy) && Valid(ctx)
    ensures var o := ParseArgsAsWritten([NullArg, Array(gs)]);
      ValidateProperties(e, ctx, model, ty, o.eager, o.groups, o.props) == Ok(Outcome(ctx, false))
  {
    var o := ParseArgsAsWritten([NullArg, Array(gs)]);
    assert o == Options(false, Some(gs), Some([Array(gs)])) by {
      assert [NullArg, Array(gs)][1..] == [Array(gs)];
    }
    ListAllowListWalksNothing(e, ctx, model, ty, false, Some(gs), gs);
  }

  /**
   * `validate(model, null, groups)` as written returns a context that is
   * exactly the fresh one, whatever the model and its constraints.
   */
  lemma ValidateAsWrittenIgnoresModel(e: Engine, model: Value, gs: seq<string>)
    requires Acyclic(e.strategy)
    ensures ValidateAsWritten(e, model, [NullArg, Array(gs)]) == Ok(NewContext())
  {
    if !model.Null? {
      AsWrittenValidatesNothing(e, NewContext(), model, e.strategy.findType(None, None), gs);
    }
  }

  /** Outside the misread case, `validate` as written and corrected return the same context. */
  lemma ValidateAgree(e: Engine, model: Value, args: seq<Arg>)
    requires Acyclic(e.strategy)
    requires ArgAt(args, 0).Array? || ArgAt(args, 0).Bool? || !ArgAt(args, 1).Array?
    ensures ValidateAsWritten(e, model, args) == Validate(e, model, args)
  {
    ParseArgsAgree(args);
  }

  /** The corrected sniffing validates every property with those same arguments. */
  lemma CorrectedValidatesAll(gs: seq<string>)
    ensures ParseArgs([NullArg, Array(gs)]) == Options(false, Some(gs), None)
  {
  }

  /**
   * The walk over `keys + more` is the walk over `keys`, then, unless that
   * failed or returned `false`, the walk over `more` from where it left off.
   */
  lemma {:induction false} VisitAllAppend(e: Engine, ctx: Context, model: Value, ty: TypeRef, eager: bool,
                                          groups: Option<seq<string>>, props: Option<seq<Arg>>, keys: seq<Key>, more: seq<Key>)
    requires Acyclic(e.strategy) && Valid(ctx)
    ensures VisitAll(e, ctx, model, ty, eager, groups, props, keys + more)
         == match VisitAll(e, ctx, model, ty, eager, groups, props, keys)
            case Err(err) => Err(err)
            case Ok(o) => if o.stop then Ok(o) else VisitAll(e, o.ctx, model, ty, eager, groups, props, more)
    decreases |keys|
  {
    if keys == [] {
      assert keys + more == more;
    } else {
      assert (keys + more)[0] == keys[0] && (keys + more)[1..] == keys[1..] + more;
      var o := Visit(e, ctx, model, ty, eager, groups, props, keys[0]);
      if o.Ok? && !o.value.stop {
        VisitAllAppend(e, o.value.ctx, model, ty, eager, groups, props, keys[1..], more);
      }
    }
  }

  /**
   * The reference meaning of "the model validates": every allowed property
   * passes its constraints, and so does every object reached by descending.
   */
  ghost predicate CleanModel(e: Engine, model: Value, ty: TypeRef, groups: Option<seq<string>>, props: Option<seq<Arg>>)
    requires Acyclic(e.strategy)
    decreases Rank(model), Size(model), 2, 0
  {
    CleanKeys(e, model, ty, groups, SanitizeProps(props), e.strategy.enumerate(model, ty))
  }

  /** Every key of the list is clean. */
  ghost predicate CleanKeys(e: Engine, model: Value, ty: TypeRef, groups: Option<seq<string>>, props: Option<seq<Arg>>, keys: seq<Key>)
    requires Acyclic(e.strategy)
    decreases Rank(model), Size(model), 1, |keys|
  {
    forall i | 0 <= i < |keys| :: CleanKey(e, model, ty, groups, props, keys[i])
  }

  /** A list of keys is clean when its first key and the rest are. */
  lemma CleanKeysCons(e: Engine, model: Value, ty: TypeRef, groups: Option<seq<string>>, props: Option<seq<Arg>>, keys: seq<Key>)
    requires Acyclic(e.strategy) && keys != []
    ensures CleanKeys(e, model, ty, groups, props, keys)
        <==> CleanKey(e, model, ty, groups, props, keys[0]) && CleanKeys(e, model, ty, groups, props, keys[1..])
  {
    assert forall i | 1 <= i < |keys| :: keys[i] == keys[1..][i - 1];
  }

  /** The key is excluded, or its constraints pass and its value, if descended into, is clean. */
  ghost predicate CleanKey(e: Engine, model: Value, ty: TypeRef, groups: Option<seq<string>>, props: Option<seq<Arg>>, key: Key)
    requires Acyclic(e.strategy)
    decreases Rank(model), Size(model), 0, 0
  {
    var s := e.strategy;
    var value := s.evaluate(model, key, ty);
    (props.Some? && !Allowed(props.value, key))
    || (Passes(e.run, e.registry, s.constraintsOf(model, ty, key), value, groups)
        && (Descends(s, model, ty, key, value) ==> CleanModel(e, value, s.findType(Some(ty), Some(key)), groups, None)))
  }

  /** Without `eager`, the result tree ends up valid exactly when it started valid and the model is clean. */
  lemma {:induction false} ValidatePropertiesClean(e: Engine, ctx: Context, model: Value, ty: TypeRef,
                                                   groups: Option<seq<string>>, props: Option<seq<Arg>>)
    requires Acyclic(e.strategy) && Valid(ctx)
    requires ValidateProperties(e, ctx, model, ty, false, groups, props).Ok?
    ensures IsValid(Some(ValidateProperties(e, ctx, model, ty, false, groups, props).value.ctx.result))
        <==> IsValid(Some(ctx.result)) && CleanModel(e, model, ty, groups, props)
    decreases Rank(model), Size(model), 2, 0
  {
    VisitAllClean(e, ctx, model, ty, groups, SanitizeProps(props), e.strategy.enumerate(model, ty));
  }

  /** `ValidatePropertiesClean` for a list of keys. */
  lemma {:induction false} VisitAllClean(e: Engine, ctx: Context, model: Value, ty: TypeRef,
                                         groups: Option<seq<string>>, props: Option<seq<Arg>>, keys: seq<Key>)
    requires Acyclic(e.strategy) && Valid(ctx)
    requires VisitAll(e, ctx, model, ty, false, groups, props, keys).Ok?
    ensures IsValid(Some(VisitAll(e, ctx, model, ty, false, groups, props, keys).value.ctx.result))
        <==> IsValid(Some(ctx.result)) && CleanKeys(e, model, ty, groups, props, keys)
    decreases Rank(model), Size(model), 1, |keys|
  {
    if keys != [] {
      VisitClean(e, ctx, model, ty, groups, props, keys[0]);
      var o := Visit(e, ctx, model, ty, false, groups, props, keys[0]).value;
      assert VisitAll(e, ctx, model, ty, false, groups, props, keys) == VisitAll(e, o.ctx, model, ty, false, groups, props, keys[1..]);
      VisitAllClean(e, o.ctx, model, ty, groups, props, keys[1..]);
      CleanKeysCons(e, model, ty, groups, props, keys);
    }
  }

  /** `ValidatePropertiesClean` for one key. */
  lemma {:induction false} VisitClean(e: Engine, ctx: Context, model: Value, ty: TypeRef,
                                      groups: Option<seq<string>>, props: Option<seq<Arg>>, key: Key)
    requires Acyclic(e.strategy) && Valid(ctx)
    requires Visit(e, ctx, model, ty, false, groups, props, key).Ok?
    ensures IsValid(Some(Visit(e, ctx, model, ty, false, groups, props, key).value.ctx.result))
        <==> IsValid(Some(ctx.result)) && CleanKey(e, model, ty, groups, props, key)
    decreases Rank(model), Size(model), 0, 0
  {
    if !(props.Some? && !Allowed(props.value, key)) {
      var s := e.strategy;
      var raws := s.constraintsOf(model, ty, key);
      var value := s.evaluate(model, key, ty);
      var c1 := PushPath(ctx, key);
      EvaluateConstraintsValidity(e.run, e.registry, c1, raws, value, false, groups);
      var c2 := EvaluateConstraints(e.run, e.registry, c1, raws, value, false, groups).value;
      if Descends(s, model, ty, key, value) {
        ValidatePropertiesClean(e, c2, value, s.findType(Some(ty), Some(key)), groups, None);
      }
    }
  }

  /** `hasValidationErrors` reports whether the result tree, as a whole, holds a failure. */
  ghost predicate ReportsRootErrors(e: Engine)
  {
    forall c :: e.hasErrors(c) == !IsValid(Some(c.result))
  }

  /**
   * With `eager`, a walk that starts from a valid tree returns `false`
   * exactly when the tree has become invalid: it stops at the first error.
   */
  lemma {:induction false} EagerStopsAtError(e: Engine, ctx: Context, model: Value, ty: TypeRef,
                                             groups: Option<seq<string>>, props: Option<seq<Arg>>)
    requires Acyclic(e.strategy) && Valid(ctx) && ReportsRootErrors(e) && IsValid(Some(ctx.result))
    requires ValidateProperties(e, ctx, model, ty, true, groups, props).Ok?
    ensures var o := ValidateProperties(e, ctx, model, ty, true, groups, props).value;
      o.stop <==> !IsValid(Some(o.ctx.result))
    decreases Rank(model), Size(model), 2, 0
  {
    VisitAllEager(e, ctx, model, ty, groups, SanitizeProps(props), e.strategy.enumerate(model, ty));
  }

  /** `EagerStopsAtError` for a list of keys. */
  lemma {:induction false} VisitAllEager(e: Engine, ctx: Context, model: Value, ty: TypeRef,
                                         groups: Option<seq<string>>, props: Option<seq<Arg>>, keys: seq<Key>)
    requires Acyclic(e.strategy) && Valid(ctx) && ReportsRootErrors(e) && IsValid(Some(ctx.result))
    requires VisitAll(e, ctx, model, ty, true, groups, props, keys).Ok?
    ensures var o := VisitAll(e, ctx, model, ty, true, groups, props, keys).value;
      o.stop <==> !IsValid(Some(o.ctx.result))
    decreases Rank(model), Size(model), 1, |keys|
  {
    if keys != [] {
      VisitEager(e, ctx, model, ty, groups, props, keys[0]);
      var o := Visit(e, ctx, model, ty, true, groups, props, keys[0]).value;
      if !o.stop {
        VisitAllEager(e, o.ctx, model, ty, groups, props, keys[1..]);
      }
    }
  }

  /** `EagerStopsAtError` for one key. */
  lemma {:induction false} VisitEager(e: Engine, ctx: Context, model: Value, ty: TypeRef,
                                      groups: Option<seq<string>>, props: Option<seq<Arg>>, key: Key)
    requires Acyclic(e.strategy) && Valid(ctx) && ReportsRootErrors(e) && IsValid(Some(ctx.result))
    requires Visit(e, ctx, model, ty, true, groups, props, key).Ok?
    ensures var o := Visit(e, ctx, model, ty, true, groups, props, key).value;
      o.stop <==> !IsValid(Some(o.ctx.result))
    decreases Rank(model), Size(model), 0, 0
  {
    if !(props.Some? && !Allowed(props.value, key)) {
      var s := e.strategy;
      var raws := s.constraintsOf(model, ty, key);
      var value := s.evaluate(model, key, ty);
      var c1 := PushPath(ctx, key);
      var c2 := EvaluateConstraints(e.run, e.registry, c1, raws, value, true, groups).value;
      if !e.hasErrors(c2) && Descends(s, model, ty, key, value) {
        EagerStopsAtError(e, c2, value, s.findType(Some(ty), Some(key)), groups, None);
      }
    }
  }

  /**
   * With `eager`, once the walk over `keys` has hit an error, the keys after
   * them are never visited.
   */
  lemma EagerSkipsRest(e: Engine, ctx: Context, model: Value, ty: TypeRef,
                       groups: Option<seq<string>>, props: Option<seq<Arg>>, keys: seq<Key>, more: seq<Key>)
    requires Acyclic(e.strategy) && Valid(ctx) && ReportsRootErrors(e) && IsValid(Some(ctx.result))
    requires VisitAll(e, ctx, model, ty, true, groups, props, keys).Ok?
    requires !IsValid(Some(VisitAll(e, ctx, model, ty, true, groups, props, keys).value.ctx.result))
    ensures VisitAll(e, ctx, model, ty, true, groups, props, keys + more) == VisitAll(e, ctx, model, ty, true, groups, props, keys)
  {
    VisitAllEager(e, ctx, model, ty, groups, props, keys);
    VisitAllAppend(e, ctx, model, ty, true, groups, props, keys, more);
  }

  /** Without `eager`, `validate` leaves a valid tree exactly when the model is clean. */
  lemma ValidateClean(e: Engine, model: Value, args: seq<Arg>)
    requires Acyclic(e.strategy) && !model.Null? && !ParseArgs(args).eager
    requires Validate(e, model, args).Ok?
    ensures var o := ParseArgs(args);
      IsValid(Some(Validate(e, model, args).value.result))
      <==> CleanModel(e, model, e.strategy.findType(None, None), o.groups, o.props)
  {
    var o := ParseArgs(args);
    ValidatePropertiesClean(e, NewContext(), model, e.strategy.findType(None, None), o.groups, o.props);
  }
}

=== FILE: values.dfy ===
/**
 * The model graph handed to the validator, and the property keys the
 * introspection strategy enumerates.
 */
module Values {

  /**
   * A JavaScript value as the traversal sees it. `Null` stands for both
   * `null` and `undefined`; `Prim` for every value whose `typeof` is not
   * "object" (strings, numbers, booleans, functions); `Date` for a
   * `Date` instance, which is an object but never descended into.
   */
  datatype Value =
    | Null
    | Prim(text: string)
    | Date
    | Obj(fields: seq<Field>)
    | Arr(items: seq<Value>)

  /** One own property of an object, in insertion order. */
  datatype Field = Field(name: string, value: Value)

  /** A measure on values: strictly larger than every value nested in it. */
  function Size(v: Value): nat
  {
    match v
    case Obj(fs) => 1 + FieldsSize(fs)
    case Arr(xs) => 1 + ItemsSize(xs)
    case _ => 1
  }

  function FieldsSize(fs: seq<Field>): nat
  {
    if fs == [] then 0 else Size(fs[0].value) + FieldsSize(fs[1..])
  }

  function ItemsSize(xs: seq<Value>): nat
  {
    if xs == [] then 0 else Size(xs[0]) + ItemsSize(xs[1..])
  }

  /** A non-null value whose `typeof` is "object" and which is not a `Date`. */
  predicate Composite(v: Value)
  {
    v.Obj? || v.Arr?
  }

  /**
   * A property key: a property name or an array index. The distinction
   * matters to the result tree, whose container kind follows `typeof key`.
   */
  datatype Key = Name(name: string) | Index(index: nat)

  /** The decimal digits of `n`, as JavaScript writes a non-negative integer. */
  function Decimal(n: nat): (s: string)
    ensures |s| > 0
    ensures forall i :: 0 <= i < |s| ==> '0' <= s[i] <= '9'
  {
    var d := ['0' + ((n % 10) as char)];
    if n < 10 then d else Decimal(n / 10) + d
  }

  /**
   * The string a key becomes when used as a property name: JavaScript
   * stores `obj[3]` and `obj["3"]` under the same property.
   */
  function PropertyName(k: Key): string
  {
    match k
    case Name(s) => s
    case Index(i) => Decimal(i)
  }

  /**
   * A simplified property read: an object's first field of that name, an
   * array's element at that index, and `undefined` (here `Null`) otherwise.
   * Unlike JavaScript it gives nothing for `arr["0"]`, `arr.length` or the
   * characters of a string; it serves as a strategy that meets the
   * termination assumption.
   */
  function ReadProperty(v: Value, k: Key): (r: Value)
    ensures v.Arr? && k.Index? && k.index < |v.items| ==> r == v.items[k.index]
    ensures !v.Obj? && !v.Arr? ==> r == Null
  {
    match v
    case Obj(fs) => FieldNamed(fs, PropertyName(k))
    case Arr(xs) => if k.Index? && k.index < |xs| then xs[k.index] else Null
    case _ => Null
  }

  /** The value of the first field called `name`, or `Null` when there is none. */
  function FieldNamed(fs: seq<Field>, name: string): (r: Value)
    ensures r == Null || exists i | 0 <= i < |fs| :: fs[i].name == name && fs[i].value == r
    ensures (forall i | 0 <= i < |fs| :: fs[i].name != name) ==> r == Null
    decreases |fs|
  {
    if fs == [] then Null
    else if fs[0].name == name then fs[0].value
    else FieldNamed(fs[1..], name)
  }

  /** A field's value is no larger than all the fields together. */
  lemma {:induction false} FieldNamedSmaller(fs: seq<Field>, name: string)
    ensures Size(FieldNamed(fs, name)) <= FieldsSize(fs) || FieldNamed(fs, name) == Null
    decreases |fs|
  {
    if fs != [] && fs[0].name != name {
      FieldNamedSmaller(fs[1..], name);
    }
  }

  /** An element is no larger than all the elements together. */
  lemma {:induction false} ItemSmaller(xs: seq<Value>, i: nat)
    requires i < |xs|
    ensures Size(xs[i]) <= ItemsSize(xs)
    decreases i
  {
    if i > 0 {
      ItemSmaller(xs[1..], i - 1);
    }
  }

  /** A property of an object or array is strictly smaller than it, unless it is missing. */
  lemma ReadPropertySmaller(v: Value, k: Key)
    requires Composite(v)
    ensures ReadProperty(v, k) == Null || Size(ReadProperty(v, k)) < Size(v)
  {
    match v
    case Obj(fs) => FieldNamedSmaller(fs, PropertyName(k));
    case Arr(xs) =>
      if k.Index? && k.index < |xs| {
        ItemSmaller(xs, k.index);
      }
  }
}

=== FILE: wrappers.dfy ===
/** Failure-carrying wrappers shared by the whole model. */
module Wrappers {

  /** JavaScript's `null`/`undefined` versus a present value. */
  datatype Option<+T> = None | Some(value: T)

  /** The outcome of an operation that may throw: `Err` stands for the exception. */
  datatype Result<+T, +E> = Ok(value: T) | Err(error: E) {

    predicate IsFailure() {
      Err?
    }

    function PropagateFailure<U>(): Result<U, E>
      requires Err?
    {
      Err(error)
    }

    function Extract(): T
      requires Ok?
    {
      value
    }
  }
}
